=== FILE: README.md ===
# Branding asset generator, modelled in Dafny

`script.py` is a small command-line tool that writes a set of branding files
for a web administration console. The files are:

- two `BrandingProperties.properties` files;
- two text logos;
- either six one-pixel-tall gradient header strips or one solid header strip.

The strip colours are derived from a start colour and an end colour: the two
midpoints a third and two thirds of the way between them. PIL does the
drawing; the program's own logic is integer colour and layout arithmetic.
This project models that logic and proves what it promises.

Modules, one per file:

- `Results` (`results.dfy`): `Option` and `Result`.
- `Hex` (`hex.dfy`):
  - hexadecimal digits;
  - `int(g, 16)` on two digits;
  - the `{:02X}` format field;
  - the `^#[0-9A-Fa-f]{6}$` colour pattern.
- `Colors` (`colors.dfy`):
  - `hex_to_rgb` and `rgb_to_hex`;
  - `calculate_middle_colors`;
  - the glow colour.
- `Lines` (`lines.dfy`): `str.split('\n')` and its inverse `'\n'.join`.
- `Arith` (`arith.dfy`): five facts about multiplication and floor division.
- `Gradient` (`gradient.dfy`):
  - `create_gradient`: the pixel loop, column mirroring and the per-step colour;
  - `create_solid_background`;
  - the three-segment header these strips form together.
- `TextLayout` (`text_layout.dfy`): `create_transparent_image_with_text`.
  - The font's bounding boxes are inputs.
  - The result is the sequence of `draw.text` calls, each with its position, fill and font mode.
- `Properties` (`properties.dfy`): the two templates of `create_properties_file`.
  - Each template is a list of comment, blank and `key = value` lines.
  - A lookup on the template lines is included, so key-to-colour wiring can be stated. It reads the template, not the written file. The two agree when no value holds a newline. An end colour ending in '\n' is where they part: the template entry holds the whole value, while the written file has the value without its newline on one line and an empty line after it.
- `Assembler` (`assembler.dfy`): `main` after argument parsing.
  - `Plan` either returns the `parser.error` that stops the run, or the list of files written, in order.
  - Each file is described by the call that produces it.

Python's `//` with a positive divisor floors, and so does Dafny's `/` on
`int`. Every `// 3` and `// 2` of the source is therefore written as `/`.

Four behaviours of the code that are easy to misread:

- **Midpoints.** `calculate_middle_colors` divides with `//`, which floors
  rather than truncates. From 10 to 9 the difference is -1 and `-1 // 3` is
  -1, so the first midpoint is 9; truncation would give 10.
  `Colors.ThirdsOf` floors.
- **Gradient pixels.** `create_gradient` computes `int(start + step * x)`,
  which truncates the whole sum, not just `step * x`. On the non-negative
  channel values the program handles, that is
  `start + floor((end - start) * x / (width - 1))` (`Gradient.RampFloor`).
  On a descending ramp, at a step where `(end - start) * x / (width - 1)` is
  not a whole number, this is one below
  `start + trunc((end - start) * x / (width - 1))`.
- **Colour pattern.** `re.match` with `$` also matches just before a final
  newline. So `"#FFFFFF\n"` passes validation (`Hex.TrailingNewlineAccepted`).
  `hex_to_rgb` never reads the newline, so the colour arithmetic and the
  images are as for `"#FFFFFF"`. The newline does reach the administration
  properties file: an end colour such as `"#FF0000\n"` is written into its
  `splash.hex.code.1` and `header.heading.color` lines, each followed by an
  extra empty line. `Assembler.NewlineEndColorReachesAdminFile` shows this for
  `splash.hex.code.1`.
- **Empty logo colour.** `--logo-color ""` is falsy. It is never validated and
  the logo falls back to the end colour (`Assembler.EmptyLogoColorIgnored`).

## Model

| member | source | states |
|---|---|---|
| Hex.Digits | script.py:16 | `{:X}` of `n` is upper-case hexadecimal digits. It is one digit exactly when `n` < 16, at most two when `n` < 256, and at least three from 256 up. |
| Hex.DigitsValue | script.py:16 | The upper-case digit string `{:X}` writes for `n` denotes `n` in base sixteen. |
| Hex.Format02X | script.py:16 | `{:02X}` of a byte is two upper-case digits whose base-16 value is the byte. A number above 255 takes at least three characters. A negative one starts with '-'. |
| Hex.ParseByte | script.py:13 | `int(hi + lo, 16)` of two hexadecimal digits is below 256. |
| Hex.FormatParseByte | script.py:13-16 | Formatting the value `int(hi+lo, 16)` with `{:02X}` gives back the two digits, upper-cased. |
| Hex.ColorPatternLanguage | script.py:229-233 | `MatchesColorPattern`, the model of `re.match(r'^#[0-9A-Fa-f]{6}$', s)`, accepts exactly '#' followed by six hexadecimal digits, then either nothing or one final '\n'. Both directions are stated. |
| Hex.ShortNeverMatches | script.py:229-233 | No string shorter than seven characters passes the colour pattern. |
| Hex.TrailingNewlineAccepted | script.py:229-233 | The colour pattern accepts "#FFFFFF\n" (Python's `$` before a final newline). It rejects a second newline, a missing '#' and a colour name. |
| Colors.StripHashes | script.py:12 | `lstrip('#')` returns a suffix of its input that does not start with '#'. |
| Colors.StripHashesRemovesOnlyHashes | script.py:12 | Everything `lstrip('#')` removes is a '#'. |
| Colors.HexToRgb | script.py:11-13 | Every channel parsed from a well-formed colour is in 0..255. |
| Colors.RgbToHex | script.py:15-16 | A colour with channels in 0..255 formats as '#' and exactly six upper-case hexadecimal digits. |
| Colors.CanonicalIsParsable | script.py:15-16 | What `rgb_to_hex` writes passes the command-line pattern and is read back by `hex_to_rgb`. |
| Colors.ReadSixDigits | script.py:11-13 | `hex_to_rgb` of '#' and six hexadecimal digits reads the pairs at offsets 0, 2 and 4. |
| Colors.ByteRoundTrip | script.py:13-16 | A channel's two `{:02X}` digits, read back with `int(…, 16)`, give the channel. |
| Colors.RgbToHexToRgb | script.py:11-16 | Formatting a valid colour and parsing it again gives the same colour. |
| Colors.HexToRgbToHex | script.py:11-16 | Parsing then formatting gives '#' and the six digits read, upper-cased, whatever number of '#' led the input. |
| Colors.SixDigitRoundTrip | script.py:11-16 | For six hexadecimal digits `d`, `rgb_to_hex(hex_to_rgb("#" + d))` is "#" + `d` upper-cased, and every channel is in 0..255. |
| Colors.PatternIsParsable | script.py:229-233 | Every string the colour pattern admits is one `hex_to_rgb` parses, and the six digits read are those after the '#'. |
| Colors.ThirdsOf | script.py:35-49 | Each midpoint channel is the start plus the floor of one or two thirds of the difference, stated without division. |
| Colors.MiddleRgb | script.py:31-49 | The floor-of-thirds relation holds channel by channel for both midpoints. |
| Colors.CalculateMiddleColors | script.py:31-51 | Both midpoints come back as '#' and six upper-case digits. |
| Colors.ThirdsOrdered | script.py:35-49 | Per channel, both midpoints lie between start and end. The first lies between start and the second, and the second between the first and end; ascending or descending, the order is start, mid1, mid2, end. |
| Colors.MiddlesBetween | script.py:35-49 | Each midpoint lies between start and end in every channel, and mid1 between start and mid2. |
| Colors.MiddlesValid | script.py:35-51 | Midpoints of two colours with channels in 0..255 also have channels in 0..255. |
| Colors.MiddlesOfOneColor | script.py:31-49 | When start equals end, both midpoints equal start. |
| Colors.MiddleColorsOfOneColor | script.py:31-51 | For text colours: `calculate_middle_colors(c, c)` is the canonical form of `c`, twice. |
| Colors.BlackToWhiteMiddles | script.py:31-51 | From `#000000` to `#FFFFFF` the midpoints are `#555555` and `#AAAAAA`. |
| Colors.Brighten | script.py:117-119 | `min(v + 120, 255)` is at most 255. It is exactly 255 when `v >= 135`, else `v + 120`, and never below `v` for a byte. |
| Colors.GlowColor | script.py:116-120 | The glow colour of a valid colour is valid, brightens every channel, and saturates a channel exactly when it is at least 135. |
| Lines.SplitLines | script.py:89 | `text.split('\n')` yields at least one piece, none holding a newline, and joining them with newlines gives the text back. |
| Lines.SplitJoin | script.py:89 | Splitting a newline-join of newline-free lines recovers exactly those lines. |
| Lines.SplitThreeLines | script.py:89 | Text that begins with two newline-free lines and an empty line splits, by `split('\n')`, into exactly those three pieces first. |
| Lines.TwoLineLogoText | script.py:302 | "Automate\nBuilders" splits into two lines. |
| Lines.OneLineLogoText | script.py:266 | "AB" is one line. |
| Gradient.TruncDiv | script.py:166-168 | `int()` of `a / d` for `d` > 0 rounds toward zero. For `a` >= 0 the result `q` satisfies `q*d <= a < q*d + d`; for `a` < 0 it satisfies `q*d - d < a <= q*d`. |
| Gradient.TruncExact | script.py:166-168 | `int()` of an exact quotient `k*d / d` is `k`, for either sign of `k`. |
| Gradient.Ramp | script.py:166-168 | A channel's ramp gives the start value at step 0 and the end value at step `width - 1`. |
| Gradient.StepColor | script.py:166-168 | The pixel colour at step 0 is the start colour, and at step `width - 1` the end colour. |
| Gradient.Column | script.py:165 | The column step `x` is written to is inside the image. |
| Gradient.ColumnInvolution | script.py:165 | Mirroring a column twice gives it back, so each column receives exactly one step. |
| Gradient.Strip | script.py:154-171 | The finished strip has exactly `width` pixels. |
| Gradient.CreateGradient | script.py:154-171 | The strip painted from two parsed colours is `Strip`. Steps are written to distinct columns covering `[0, width)`, and step `x` goes to column `width - 1 - x` exactly when right-to-left. |
| Gradient.PaintSteps | script.py:155-169 | From a black image, the loop paints every column once, with the colour of the step mirrored onto it, and records the columns in order. |
| Gradient.SolidBackground | script.py:53-56 | The solid background has `height` rows of `width` pixels, and every pixel is `hex_to_rgb(color)`. |
| Gradient.RampFloor | script.py:160-168 | For non-negative channels, `int(start + step * x)` is `start + floor((end - start) * x / (width - 1))`. |
| Gradient.RampEnds | script.py:160-168 | Step 0 gives the start channel and step `width - 1` the end channel. |
| Gradient.RampBetween | script.py:160-168 | Every step's channel lies between the start and end channels. |
| Gradient.RampMonotone | script.py:160-168 | Later steps move towards the end channel, never back. |
| Gradient.MirrorStrip | script.py:165 | The right-to-left strip is the left-to-right strip reversed. |
| Gradient.StripEnds | script.py:164-169 | Left to right, column 0 is the start colour and the last column the end colour; right to left, the reverse. |
| Gradient.StripBetween | script.py:164-169 | Every pixel lies channel by channel between the two end colours and is a valid colour. |
| Gradient.FlatStrip | script.py:154-171 | A gradient from a colour to itself is a solid strip of that colour. |
| Gradient.TwoPixelStrip | script.py:154-171 | At width 2 the strip is exactly its two end colours, in the direction's order. |
| Gradient.StripMonotone | script.py:160-169 | A left-to-right strip's channel is a monotone run from the start channel to the end channel. |
| Gradient.Stops | script.py:280-285 | The header's colour stops are four: the start colour first and the end colour last. |
| Gradient.Segment | script.py:280-285 | Header segment `j` is `width` pixels long, beginning at stop `j` and ending at stop `j + 1`. |
| Gradient.Header | script.py:280-285 | The three segments side by side are `3 * width` pixels from the start colour to the end colour. Each join repeats its stop: the last pixel of one segment equals the first of the next. |
| Gradient.HeaderMonotone | script.py:280-285 | The three left-to-right strips (start to mid1, mid1 to mid2, mid2 to end), laid side by side, form a single monotone ramp per channel from start to end. |
| TextLayout.LineTopStep | script.py:149 | Line `i + 1` starts one line height and one `font_size // 2` gap below line `i`. |
| TextLayout.RenderText | script.py:66-152 | One main-pass call per line of `text.split('\n')`, and one glow-pass call per line only with `glow`. Every call is at the line's centred x and accumulated y, in the parsed text colour with alpha 255. The glow calls are one pixel higher, in the glow colour with alpha 25. All are bilevel unless `antialias`. |
| TextLayout.DrawLines | script.py:92-149 | The same, for lines already split and a colour already parsed. |
| TextLayout.LineWidth | script.py:102 | A one-character line, or zero letter spacing, is exactly as wide as its bounding box. Positive spacing never makes a line narrower than its box, and negative spacing never wider. |
| TextLayout.Measure | script.py:99-106 | Each line's width is bbox width plus `(len(line) - 1) * letter_spacing`; its height is bbox height. |
| TextLayout.DrawPass | script.py:122-149 | A drawing loop starting at `start_y` places line `i` at its centred x and at `start_y` plus the heights and gaps of all earlier lines, less the lift. |
| TextLayout.BlockHeight | script.py:109-113 | The last line ends exactly `total_height` below `start_y`. |
| TextLayout.TotalHeight | script.py:109 | One line's block is that line's height. Two lines' block is both heights plus one `font_size // 2` gap. |
| TextLayout.StartY | script.py:112 | Before the offset, the space above the block and below it differ by at most one pixel, the spare pixel going below. |
| TextLayout.LineX | script.py:141 | A line's left and right margins, before the offset, differ by at most one pixel, the spare pixel going right. |
| TextLayout.LineTop | script.py:113-149 | Line 0 starts at `start_y`. After the last line, `current_y` is `start_y` plus the block height plus one more gap. |
| TextLayout.GlowBrightens | script.py:116-120 | The glow colour lies between the text colour and white in every channel. |
| Properties.PropertiesLines | script.py:173-206 | The root template has 2 lines, and the administration template 29. |
| Properties.PropertiesContent | script.py:173-206 | The root file's text is exactly `#selfcare logo`, a newline, and `selfcare.companyLogoImage = ../branding/branding_logo.png`. The administration file's text begins with its comment line and `splash.hex.code.1 = ` followed by the end colour. |
| Properties.NewlineValueInAdminContent | script.py:178-184 | An end colour ending in '\n' is written as is. The template entry for `splash.hex.code.1` holds the whole value, newline included, and the written text has an empty line right after that entry. |
| Properties.NewlineValueInWrittenText | script.py:178-184 | Read line by line, the written administration text for an end colour `e + "\n"` has `splash.hex.code.1 = e` as its second line, without the newline, and an empty third line. |
| Properties.Lookup | script.py:178-206 | A missing key has no entry anywhere in the template. |
| Properties.LookupInPrefix | script.py:178-206 | A key found in the head of a template keeps its value whatever follows. |
| Properties.LookupFirst | script.py:178-206 | The first entry for a key decides its value. |
| Properties.AdminColorKeys | script.py:178-184 | `splash.hex.code.1` and `header.heading.color` hold the end colour; `splash.hex.code.2` holds `color3` and `splash.hex.code.3` holds `color2`. |
| Properties.AdminValues | script.py:178-206 | Every value in the administration template is the end colour, `color2`, `color3`, white or black. The start colour is not used. |
| Properties.StartColorUnused | script.py:173-206 | The content is the same whatever the start colour. |
| Properties.RootIsFixed | script.py:174-176 | The root content is the same whatever the colours. |
| Properties.ReadBack | script.py:175-209 | Reading a written template back line by line gives its lines when no part spans lines. |
| Assembler.Validate | script.py:229-233 | A run that passes validation has start, end and effective logo colours all matching the pattern. |
| Assembler.Spec | script.py:264-276 | A logo is laid out with the colour its file was planned with. |
| Assembler.Headers | script.py:278-297 | Six strips in gradient style, one in solid style. |
| Assembler.Plan | script.py:211-312 | A run fails exactly when validation fails. An accepted run writes 10 files in gradient style and 5 in solid style, and its start and end colours parse. |
| Assembler.Run | script.py:255-312 | The accepted run's file count per style. |
| Assembler.Accepted | script.py:229-312 | An accepted run's colours match the pattern and parse. Its files are `Run` at the midpoints `calculate_middle_colors` returns. |
| Assembler.RunShape | script.py:255-312 | Properties root then admin, the primary logo, the header strips, and the secondary logo last in the end colour. |
| Assembler.PlanValidation | script.py:229-233 | The run fails with the colour message exactly when start or end fails the pattern. It fails with the logo message exactly when both pass but a non-empty logo colour fails. |
| Assembler.EmptyLogoColorIgnored | script.py:232-236 | An empty `--logo-color` validates and colours the logo exactly as an absent one: the end colour is used. |
| Assembler.DefaultsAccepted | script.py:218-221 | The default colours `#FFFFFF` and `#FF0000` pass validation in either style. |
| Assembler.LogoColor | script.py:236 | The logo colour is the end colour or a non-empty given logo colour. With no logo colour given it is the end colour, and it is empty only when the end colour is. |
| Assembler.LogoColorDefault | script.py:236 | The primary logo uses the given logo colour, else the end colour. The secondary logo always uses the end colour. |
| Assembler.NewlineEndColorAccepted | script.py:229-233 | The default end colour with a trailing newline, `"#FF0000\n"`, is accepted. |
| Assembler.NewlineEndColorReachesAdminFile | script.py:247-261 | An accepted eight-character end colour ends in '\n'. The run writes it unchanged into the administration properties, whose text then has an empty line after `splash.hex.code.1`. |
| Assembler.RunProperties | script.py:255-261 | The run's properties files, keyed, for any midpoints. |
| Assembler.PropertiesWiring | script.py:247-261 | The root file is fixed. In the administration file, `splash.hex.code.1` and `header.heading.color` are the end colour, `splash.hex.code.2` is the second midpoint and `splash.hex.code.3` the first. |
| Assembler.RunGradient | script.py:278-293 | Six 652-pixel strips, the last three right-to-left, and no solid strip. The strips go start to mid1, mid1 to mid2, mid2 to end; the RTL strips repeat the LTR colours. |
| Assembler.GradientStrips | script.py:280-293 | The same layout for the header list itself. |
| Assembler.RunSolid | script.py:294-297 | Solid style writes one 2048x1 strip in the end colour and no gradient. |
| Assembler.RunSolidDrawn | script.py:294-297 | In solid style, the strip file, drawn, is one row of 2048 pixels, each equal to `hex_to_rgb(end_color)`. |
| Assembler.SolidStripOfOneColor | script.py:53-56 | A 2048x1 solid strip in `#112233` is 2048 pixels of (0x11, 0x22, 0x33). |
| Assembler.SolidHeader | script.py:294-297 | The same, for an accepted run. |
| Assembler.RunTargets | script.py:239-311 | The files a run writes are ten distinct targets in gradient style and five in solid style. |
| Assembler.PathsDistinct | script.py:239-311 | The `os.path.join` paths of any two different targets differ. |
| Assembler.RunWritesDistinctPaths | script.py:239-311 | File `i` of a run goes to the `i`-th target, and no two files of a run share a path, so none overwrites another. |
| Assembler.RunDrawsFromPalette | script.py:255-312 | Every colour a file's drawing call uses is start, mid1, mid2, end or the logo colour. |
| Assembler.PaletteParses | script.py:229-247 | Validated colours and canonical midpoints all start with '#' and parse. |
| Assembler.PlannedColorsParse | script.py:229-312 | In an accepted run, every colour handed to `hex_to_rgb` starts with '#' and parses, so the malformed-colour path is unreachable. |
| Assembler.MidpointsParse | script.py:247 | The midpoint texts `calculate_middle_colors` returns parse back to the midpoints it computed. |
| Assembler.HeaderStripDrawn | script.py:280-285 | Gradient strip `j` (for `j` < 3) is a left-to-right 652-pixel `create_gradient` call. Drawn, it is segment `j` of the start-to-end header. |
| Assembler.RunStrip | script.py:280-285 | In a gradient run, file `3 + j` is a left-to-right 652-pixel strip whose drawn pixels are segment `j` of the header, so the three files chain into `Gradient.HeaderMonotone`'s ramp. |
| Assembler.LogoLines | script.py:264-312 | The primary logo's text is one line and the secondary logo's two. |

## Left out

- PIL itself is not modelled: `Image.new`, `ImageDraw`, `putpixel`, `draw.text` and saving as GIF or PNG. The model records the pixels `create_gradient` computes and the `draw.text` calls made, not the raster PIL produces.
- Font measurement is an input: `draw.textbbox` gives the bounding boxes. `font.getmetrics` is not modelled because its result (`font_height`) is never used.
- Font lookup is left out, because it is filesystem and library I/O: `find_font`, `ImageFont.truetype` and the fallback to `load_default`.
- `ensure_directory`, the file writes, the `print` lines and argparse parsing are left out as I/O. This includes argparse's own errors for a missing or unknown `--style`. `Args` is the parsed command line.
- `create_transparent_image` is never called by `main` and only calls PIL.
- Colors.HexToRgb: requires a string whose first six characters after the leading '#' are hexadecimal digits. Other input is not modelled. On it `int(…, 16)` may raise, and it may also succeed, because it accepts a leading sign and surrounding whitespace: `hex_to_rgb("#+F0000")` returns a red channel of 15 instead of raising. `Assembler.PlannedColorsParse` shows `main` never reaches it.
- Gradient.CreateGradient: the per-step colour uses the exact rational step truncated toward zero. The source's float division and multiplication can round to a different integer, and that is not modelled. Two kinds of conclusion depend on the exact arithmetic:
  - The last pixel equals the end colour (`Gradient.RampEnds`, `Gradient.StripEnds`). In floats, `step * (width - 1)` can round just below `end - start`, and `int()` then gives one less.
  - On a descending ramp, the same rounding can put a pixel one below the lower end colour. That breaks `Gradient.RampBetween` and `Gradient.StripBetween`, and `Gradient.HeaderMonotone` at the segment joins.
  - At width 2 the only steps are 0 and 1, and `step * 1` is exact, so `Gradient.TwoPixelStrip` holds in floats too.
- Gradient.CreateGradient: like `Gradient.Ramp`, `Gradient.Strip` and `Gradient.PaintSteps`, it requires a width of at least 2. At width 1, `/ (width - 1)` raises ZeroDivisionError; `main` always passes 652.
- Gradient.SolidBackground: only models a colour given as '#' text. The source's tuple and PIL colour-name branches are unused by `main`.
- TextLayout.RenderText: only models a text colour given as '#' text. The tuple branch of `create_transparent_image_with_text` is unused by `main`.
- Gradient.RampFloor: like RampEnds, RampBetween, RampMonotone and the strip lemmas, it assumes non-negative channel values. These are the only values `hex_to_rgb` produces.
- Properties.ReadBack: proved for templates whose parts hold no newline. That the fixed templates are such is not stated. An accepted end colour ending in '\n' breaks the premise: its `splash.hex.code.1` and `header.heading.color` entries span two lines, and the file no longer reads back as its template (`Assembler.NewlineEndColorReachesAdminFile`).

=== FILE: arith.dfy ===
/** Facts about integer division by a positive divisor that the solver does not find alone. */
module Arith {

  lemma MulMonotone(a: int, x: int, y: int)
    requires 0 <= a && x <= y
    ensures a * x <= a * y
  {
    assert a * y - a * x == a * (y - x);
  }

  /** Euclidean division has one quotient for each remainder in [0, d). */
  lemma DivUnique(n: int, d: int, q: int, r: int)
    requires d > 0 && 0 <= r < d && n == q * d + r
    ensures n / d == q && n % d == r
  {
    var q' := n / d;
    var r' := n % d;
    assert n == q' * d + r';
    if q' > q {
      MulMonotone(d, 1, q' - q);
    } else if q' < q {
      MulMonotone(d, 1, q - q');
    }
  }

  /** Adding a multiple of the divisor shifts the quotient by that multiple. */
  lemma DivShift(a: int, b: int, d: int)
    requires d > 0
    ensures (a * d + b) / d == a + b / d
  {
    var q := b / d;
    var r := b % d;
    assert a * d + b == (a + q) * d + r;
    DivUnique(a * d + b, d, a + q, r);
  }

  lemma DivMonotone(a: int, b: int, d: int)
    requires d > 0 && a <= b
    ensures a / d <= b / d
  {
    var qa := a / d;
    var qb := b / d;
    if qa > qb {
      MulMonotone(d, qb + 1, qa);
    }
  }

  /** A fraction `x / d` of `k`, with `0 <= x <= d`, floors to between 0 and `k`. */
  lemma DivBetween(k: int, x: int, d: int)
    requires d > 0 && 0 <= x <= d
    ensures 0 <= k ==> 0 <= (k * x) / d <= k
    ensures k < 0 ==> k <= (k * x) / d <= 0
  {
    var p, kd := k * x, k * d;
    DivShift(k, 0, d);
    assert kd / d == k;
    if 0 <= k {
      MulMonotone(k, 0, x);
      MulMonotone(k, x, d);
      DivMonotone(0, p, d);
      DivMonotone(p, kd, d);
    } else {
      MulMonotone(-k, 0, x);
      MulMonotone(-k, x, d);
      assert (-k) * x == -p && (-k) * d == -kd;
      DivMonotone(kd, p, d);
      DivMonotone(p, 0, d);
    }
  }
}

=== FILE: assembler.dfy ===
/**
 * `main`: validates the colour arguments, derives the working colours and
 * lists, in order, the files the run writes. Each file is described by
 * the call that produces it; `Plan` returns either that list or the
 * validation error that stops the run before anything is written.
 */
module Assembler {
  import opened Results
  import opened Hex
  import opened Colors
  import opened Lines
  import opened TextLayout
  import opened Properties
  import opened Gradient

  datatype Style = SolidStyle | GradientStyle

  /** The parsed command line. `logoColor` is `None` when `--logo-color` is absent. */
  datatype Args = Args(
    style: Style,
    glow: bool,
    startColor: string,
    endColor: string,
    logoColor: Option<string>,
    antialias: bool)

  const DefaultStartColor := "#FFFFFF"
  const DefaultEndColor := "#FF0000"

  /** The two `parser.error` messages: a bad start or end colour, or a bad logo colour. */
  datatype ValidationError = ColorsNotHex | LogoColorNotHex

  /** One written file, described by the call that produces it. */
  datatype Artifact =
    | PropertiesFile(target: Target, color1: string, color2: string, color3: string, endColor: string, isRoot: bool)
    | TextImage(target: Target, textColor: string, glow: bool, antialias: bool)
    | GradientImage(target: Target, width: int, startColor: string, endColor: string, rtl: bool)
    | SolidImage(target: Target, width: int, height: int, color: string)

  /** The text `create_properties_file` writes for a planned properties file. */
  function Content(a: Artifact): string
    requires a.PropertiesFile?
  {
    PropertiesContent(a.color1, a.color2, a.color3, a.endColor, a.isRoot)
  }

  const BrandingDir := "branding"
  const AdminDir := "branding/ccmadmin"
  const HeaderWidth := 652
  const SolidHeaderWidth := 2048

  /** `os.path.join` on a POSIX system. */
  function Join(dir: string, name: string): string {
    dir + "/" + name
  }

  /** The files a run can write. */
  datatype Target =
    | RootProperties | AdminProperties | BrandingLogo | AdminLogo
    | HeaderBegLTR | HeaderMidLTR | HeaderEndLTR | HeaderBegRTL | HeaderMidRTL | HeaderEndRTL
    | SolidHeaderImage

  /** Where each file is written, relative to the working directory. */
  function Path(t: Target): string {
    match t
    case RootProperties => Join(BrandingDir, "BrandingProperties.properties")
    case AdminProperties => Join(AdminDir, "BrandingProperties.properties")
    case BrandingLogo => Join(BrandingDir, "branding_logo.png")
    case AdminLogo => Join(AdminDir, "ciscoLogo12pxMargin.gif")
    case HeaderBegLTR => Join(AdminDir, "brandingHeaderBegLTR.gif")
    case HeaderMidLTR => Join(AdminDir, "brandingHeaderMidLTR.gif")
    case HeaderEndLTR => Join(AdminDir, "brandingHeaderEndLTR.gif")
    case HeaderBegRTL => Join(AdminDir, "brandingHeaderBegRTL.gif")
    case HeaderMidRTL => Join(AdminDir, "brandingHeaderMidRTL.gif")
    case HeaderEndRTL => Join(AdminDir, "brandingHeaderEndRTL.gif")
    case SolidHeaderImage => Join(AdminDir, "brandingHeader.gif")
  }

  /**
   * What tells the paths apart: their length, and for the six strips (the
   * only paths of one length) the characters naming the segment and the
   * direction.
   */
  function PathKey(t: Target): (int, char, char) {
    match t
    case RootProperties => (38, ' ', ' ')
    case AdminProperties => (47, ' ', ' ')
    case BrandingLogo => (26, ' ', ' ')
    case AdminLogo => (41, ' ', ' ')
    case HeaderBegLTR => (42, 'B', 'L')
    case HeaderMidLTR => (42, 'M', 'L')
    case HeaderEndLTR => (42, 'E', 'L')
    case HeaderBegRTL => (42, 'B', 'R')
    case HeaderMidRTL => (42, 'M', 'R')
    case HeaderEndRTL => (42, 'E', 'R')
    case SolidHeaderImage => (36, ' ', ' ')
  }

  /** The target a key names: `PathKey` loses nothing. */
  function KeyTarget(k: (int, char, char)): Target {
    if k.0 == 38 then RootProperties
    else if k.0 == 47 then AdminProperties
    else if k.0 == 26 then BrandingLogo
    else if k.0 == 41 then AdminLogo
    else if k.0 == 36 then SolidHeaderImage
    else if k.2 == 'L' then (if k.1 == 'B' then HeaderBegLTR else if k.1 == 'M' then HeaderMidLTR else HeaderEndLTR)
    else (if k.1 == 'B' then HeaderBegRTL else if k.1 == 'M' then HeaderMidRTL else HeaderEndRTL)
  }

  lemma KeyIdentifies(t: Target)
    ensures KeyTarget(PathKey(t)) == t
  {
  }

  lemma PathLength(t: Target)
    ensures |Path(t)| == PathKey(t).0
  {
  }

  lemma StripPathKey(t: Target)
    requires PathKey(t).0 == 42
    ensures |Path(t)| == 42 && Path(t)[32] == PathKey(t).1 && Path(t)[35] == PathKey(t).2
  {
  }

  /** No two targets share a path, so no file of a run overwrites another. */
  lemma PathsDistinct(t: Target, u: Target)
    requires t != u
    ensures Path(t) != Path(u)
  {
    KeyIdentifies(t);
    KeyIdentifies(u);
    PathLength(t);
    PathLength(u);
    if Path(t) == Path(u) && PathKey(t).0 == 42 {
      StripPathKey(t);
      StripPathKey(u);
    }
  }

  /** The targets a run writes, in the order it writes them. */
  function RunTargets(style: Style): (ts: seq<Target>)
    ensures forall i, j :: 0 <= i < j < |ts| ==> ts[i] != ts[j]
  {
    if style == GradientStyle then
      [RootProperties, AdminProperties, BrandingLogo,
       HeaderBegLTR, HeaderMidLTR, HeaderEndLTR, HeaderBegRTL, HeaderMidRTL, HeaderEndRTL,
       AdminLogo]
    else
      [RootProperties, AdminProperties, BrandingLogo, SolidHeaderImage, AdminLogo]
  }

  /** `args.logo_color` is truthy: given, and not the empty string. */
  predicate LogoGiven(args: Args) {
    args.logoColor.Some? && args.logoColor.value != ""
  }

  /**
   * `logo_color = args.logo_color if args.logo_color else args.end_color`:
   * a non-empty logo colour given on the command line, or else the end colour.
   */
  function LogoColor(args: Args): (color: string)
    ensures color == args.endColor || (args.logoColor == Some(color) && color != "")
    ensures args.logoColor.None? ==> color == args.endColor
    ensures color == "" ==> args.endColor == ""
  {
    if LogoGiven(args) then args.logoColor.value else args.endColor
  }

  /** The checks `main` makes before touching the filesystem, in its order. */
  function Validate(args: Args): (e: Option<ValidationError>)
    ensures e.None? ==> MatchesColorPattern(args.startColor) && MatchesColorPattern(args.endColor)
                        && MatchesColorPattern(LogoColor(args))
  {
    if !MatchesColorPattern(args.startColor) || !MatchesColorPattern(args.endColor) then Some(ColorsNotHex)
    else if LogoGiven(args) && !MatchesColorPattern(args.logoColor.value) then Some(LogoColorNotHex)
    else None
  }

  /** The 44x25 "AB" logo in `branding/`. */
  function BrandingLogoSpec(color: string, glow: bool, antialias: bool): TextSpec {
    TextSpec(44, 25, "AB", "m6x11.ttf", 32, color, 0, glow, 0, 1, antialias)
  }

  /** The 44x44 two-line logo in `branding/ccmadmin/`. */
  function AdminLogoSpec(color: string, glow: bool, antialias: bool): TextSpec {
    TextSpec(44, 44, "Automate\nBuilders", "m3x6.ttf", 20, color, -6, glow, -2, -20, antialias)
  }

  /** The layout `create_transparent_image_with_text` is called with for a logo file. */
  function Spec(a: Artifact): (spec: TextSpec)
    requires a.TextImage?
    ensures spec.textColor == a.textColor
  {
    if a.target == AdminLogo then AdminLogoSpec(a.textColor, a.glow, a.antialias)
    else BrandingLogoSpec(a.textColor, a.glow, a.antialias)
  }

  /** The header strips for the chosen style. */
  function Headers(style: Style, startColor: string, mid1: string, mid2: string, endColor: string)
    : (headers: seq<Artifact>)
    ensures |headers| == (if style == GradientStyle then 6 else 1)
  {
    if style == GradientStyle then
      [
        GradientImage(HeaderBegLTR, HeaderWidth, startColor, mid1, false),
        GradientImage(HeaderMidLTR, HeaderWidth, mid1, mid2, false),
        GradientImage(HeaderEndLTR, HeaderWidth, mid2, endColor, false),
        GradientImage(HeaderBegRTL, HeaderWidth, startColor, mid1, true),
        GradientImage(HeaderMidRTL, HeaderWidth, mid1, mid2, true),
        GradientImage(HeaderEndRTL, HeaderWidth, mid2, endColor, true)
      ]
    else
      [SolidImage(SolidHeaderImage, SolidHeaderWidth, 1, endColor)]
  }

  /**
   * `main` after argument parsing: two properties files, the primary logo,
   * the header strips, the secondary logo, in the order they are written.
   */
  function Plan(args: Args): (r: Result<seq<Artifact>, ValidationError>)
    ensures r.Err? <==> Validate(args).Some?
    ensures r.Ok? ==> |r.value| == (if args.style == GradientStyle then 10 else 5)
    ensures r.Ok? ==> Parsable(args.startColor) && Parsable(args.endColor)
  {
    match Validate(args)
    case Some(e) => Err(e)
    case None =>
      PatternIsParsable(args.startColor);
      PatternIsParsable(args.endColor);
      var (mid1, mid2) := CalculateMiddleColors(args.startColor, args.endColor);
      Ok(Run(args, mid1, mid2))
  }

  /** The files of an accepted run, given the two midpoint colours. */
  function Run(args: Args, mid1: string, mid2: string): (files: seq<Artifact>)
    ensures |files| == (if args.style == GradientStyle then 10 else 5)
  {
    var startColor, endColor := args.startColor, args.endColor;
    [
      PropertiesFile(RootProperties, startColor, mid1, mid2, endColor, true),
      PropertiesFile(AdminProperties, startColor, mid1, mid2, endColor, false),
      TextImage(BrandingLogo, LogoColor(args), args.glow, args.antialias)
    ]
    + Headers(args.style, startColor, mid1, mid2, endColor)
    + [TextImage(AdminLogo, endColor, args.glow, args.antialias)]
  }

  /** An accepted run: its colours parse and its files are `Run` at the computed midpoints. */
  lemma Accepted(args: Args)
    requires Plan(args).Ok?
    ensures MatchesColorPattern(args.startColor) && MatchesColorPattern(args.endColor)
    ensures MatchesColorPattern(LogoColor(args))
    ensures Parsable(args.startColor) && Parsable(args.endColor)
    ensures Plan(args).value == Run(args, CalculateMiddleColors(args.startColor, args.endColor).0,
                                    CalculateMiddleColors(args.startColor, args.endColor).1)
  {
    PatternIsParsable(args.startColor);
    PatternIsParsable(args.endColor);
  }

  /** The three leading files, then the header strips, then the second logo. */
  lemma RunShape(args: Args, mid1: string, mid2: string)
    ensures var files, hs := Run(args, mid1, mid2), Headers(args.style, args.startColor, mid1, mid2, args.endColor);
            && files[3..|files| - 1] == hs
            && files[2] == TextImage(BrandingLogo, LogoColor(args), args.glow, args.antialias)
            && files[|files| - 1] == TextImage(AdminLogo, args.endColor, args.glow, args.antialias)
            && files[0].PropertiesFile? && files[1].PropertiesFile?
            && files[0].isRoot && !files[1].isRoot
            && files[1].color2 == mid1 && files[1].color3 == mid2 && files[1].endColor == args.endColor
  {
  }

  // ---------------------------------------------------------------------
  // Properties of a run

  /**
   * A run is refused exactly when the start or end colour fails the pattern
   * (checked first) or a non-empty logo colour fails it; an empty logo
   * colour is never checked.
   */
  lemma PlanValidation(args: Args)
    ensures Plan(args) == Err(ColorsNotHex)
            <==> !MatchesColorPattern(args.startColor) || !MatchesColorPattern(args.endColor)
    ensures Plan(args) == Err(LogoColorNotHex)
            <==> MatchesColorPattern(args.startColor) && MatchesColorPattern(args.endColor)
                 && LogoGiven(args) && !MatchesColorPattern(args.logoColor.value)
  {
  }

  /** An empty logo colour is treated as an absent one: it is not validated and does not colour the logo. */
  lemma EmptyLogoColorIgnored(args: Args)
    requires args.logoColor == Some("")
    ensures Validate(args) == Validate(args.(logoColor := None))
    ensures Plan(args).Err? == Plan(args.(logoColor := None)).Err?
    ensures LogoColor(args) == LogoColor(args.(logoColor := None)) == args.endColor
  {
  }

  /** The default colours pass validation. */
  lemma DefaultsAccepted(style: Style, glow: bool, antialias: bool)
    ensures Plan(Args(style, glow, DefaultStartColor, DefaultEndColor, None, antialias)).Ok?
  {
  }

  /** The primary logo is drawn in the logo colour if one was given, else in the end colour. */
  lemma LogoColorDefault(args: Args)
    requires Plan(args).Ok?
    ensures Plan(args).value[2].TextImage?
    ensures var color := Plan(args).value[2].textColor;
            && (LogoGiven(args) ==> color == args.logoColor.value)
            && (!LogoGiven(args) ==> color == args.endColor)
    ensures Plan(args).value[|Plan(args).value| - 1].TextImage?
    ensures Plan(args).value[|Plan(args).value| - 1].textColor == args.endColor
  {
    Accepted(args);
    var (mid1, mid2) := CalculateMiddleColors(args.startColor, args.endColor);
    RunShape(args, mid1, mid2);
  }

  /** The template lines a properties file is rendered from. */
  function Template(a: Artifact): seq<PropLine>
    requires a.PropertiesFile?
  {
    PropertiesLines(a.color1, a.color2, a.color3, a.endColor, a.isRoot)
  }

  lemma RunProperties(args: Args, mid1: string, mid2: string)
    ensures var files := Run(args, mid1, mid2);
            && files[0].PropertiesFile? && files[0].target == RootProperties
            && files[1].PropertiesFile? && files[1].target == AdminProperties
            && Content(files[0]) == PropertiesContent("", "", "", "", true)
            && Lookup(Template(files[1]), "splash.hex.code.1") == Some(args.endColor)
            && Lookup(Template(files[1]), "splash.hex.code.2") == Some(mid2)
            && Lookup(Template(files[1]), "splash.hex.code.3") == Some(mid1)
            && Lookup(Template(files[1]), "header.heading.color") == Some(args.endColor)
  {
    var files := Run(args, mid1, mid2);
    RunShape(args, mid1, mid2);
    assert Template(files[1]) == PropertiesLines(args.startColor, mid1, mid2, args.endColor, false);
    AdminColorKeys(args.startColor, mid1, mid2, args.endColor);
    RootIsFixed(args.startColor, mid1, mid2, args.endColor, "", "", "", "");
  }

  /**
   * The administration properties carry the end colour under
   * `splash.hex.code.1` and `header.heading.color`, the second midpoint
   * under `splash.hex.code.2` and the first under `splash.hex.code.3`; the
   * root properties are the same for every colour.
   */
  lemma PropertiesWiring(args: Args)
    requires Plan(args).Ok?
    ensures var v, (mid1, mid2) := Plan(args).value, CalculateMiddleColors(args.startColor, args.endColor);
            && v[0].PropertiesFile? && v[0].target == RootProperties
            && v[1].PropertiesFile? && v[1].target == AdminProperties
            && Content(v[0]) == PropertiesContent("", "", "", "", true)
            && Lookup(Template(v[1]), "splash.hex.code.1") == Some(args.endColor)
            && Lookup(Template(v[1]), "splash.hex.code.2") == Some(mid2)
            && Lookup(Template(v[1]), "splash.hex.code.3") == Some(mid1)
            && Lookup(Template(v[1]), "header.heading.color") == Some(args.endColor)
  {
    Accepted(args);
    var (mid1, mid2) := CalculateMiddleColors(args.startColor, args.endColor);
    RunProperties(args, mid1, mid2);
  }

  /** A run writes each of its files to a path of its own: none overwrites another. */
  lemma RunWritesDistinctPaths(args: Args, mid1: string, mid2: string)
    ensures var files := Run(args, mid1, mid2);
            && |files| == |RunTargets(args.style)|
            && (forall i :: 0 <= i < |files| ==> files[i].target == RunTargets(args.style)[i])
            && forall i, j :: 0 <= i < j < |files| ==> Path(files[i].target) != Path(files[j].target)
  {
    var files, ts := Run(args, mid1, mid2), RunTargets(args.style);
    assert forall i :: 0 <= i < |files| ==> files[i].target == ts[i];
    forall i, j | 0 <= i < j < |files|
      ensures Path(files[i].target) != Path(files[j].target)
    {
      PathsDistinct(ts[i], ts[j]);
    }
  }

  /** The pattern lets an end colour with a trailing newline through. */
  lemma NewlineEndColorAccepted(style: Style, glow: bool, antialias: bool)
    ensures Plan(Args(style, glow, DefaultStartColor, DefaultEndColor + "\n", None, antialias)).Ok?
  {
    ColorPatternLanguage('#', DefaultEndColor[1..], "\n");
    assert DefaultEndColor + "\n" == ['#'] + DefaultEndColor[1..] + "\n";
  }

  /**
   * Such an end colour reaches the administration properties unchanged: the
   * newline ends its `splash.hex.code.1` line early and leaves a blank line
   * after it.
   */
  lemma NewlineEndColorReachesAdminFile(args: Args, mid1: string, mid2: string)
    requires MatchesColorPattern(args.endColor) && |args.endColor| == 8
    ensures args.endColor == args.endColor[..7] + "\n"
    ensures var f := Run(args, mid1, mid2)[1];
            && f.PropertiesFile? && f.target == AdminProperties
            && Lookup(Template(f), "splash.hex.code.1") == Some(args.endColor)
            && "#" + "splash header hex codes" + "\n" + "splash.hex.code.1" + " = " + args.endColor[..7] + "\n" + "\n"
               <= Content(f)
  {
    RunShape(args, mid1, mid2);
    var f := Run(args, mid1, mid2)[1];
    var e := args.endColor;
    assert e == e[..7] + "\n";
    assert Template(f) == PropertiesLines(args.startColor, mid1, mid2, e[..7] + "\n", false);
    NewlineValueInAdminContent(args.startColor, mid1, mid2, e[..7]);
  }

  /** The six gradient strips of a run, and no solid one. */
  lemma RunGradient(args: Args, mid1: string, mid2: string)
    requires args.style == GradientStyle
    ensures var hs := Run(args, mid1, mid2)[3..9];
            && (forall k :: 0 <= k < 6 ==> hs[k].GradientImage? && hs[k].width == HeaderWidth)
            && (forall k :: 0 <= k < 6 ==> hs[k].rtl == (k >= 3))
            && hs[0].startColor == args.startColor && hs[2].endColor == args.endColor
            && hs[0].endColor == hs[1].startColor == mid1 && hs[1].endColor == hs[2].startColor == mid2
            && (forall k :: 0 <= k < 3 ==>
                  hs[k + 3].startColor == hs[k].startColor && hs[k + 3].endColor == hs[k].endColor)
    ensures forall a :: a in Run(args, mid1, mid2) ==> !a.SolidImage?
  {
    RunShape(args, mid1, mid2);
  }

  lemma RunSolid(args: Args, mid1: string, mid2: string)
    requires args.style == SolidStyle
    ensures Run(args, mid1, mid2)[3] == SolidImage(SolidHeaderImage, SolidHeaderWidth, 1, args.endColor)
    ensures forall a :: a in Run(args, mid1, mid2) ==> !a.GradientImage?
  {
    RunShape(args, mid1, mid2);
  }

  /** In solid style there is one strip, 2048 by 1, in the end colour, and no gradient. */
  lemma SolidHeader(args: Args)
    requires Plan(args).Ok? && args.style == SolidStyle
    ensures Plan(args).value[3] == SolidImage(SolidHeaderImage, SolidHeaderWidth, 1, args.endColor)
    ensures forall a :: a in Plan(args).value ==> !a.GradientImage?
  {
    Accepted(args);
    var (mid1, mid2) := CalculateMiddleColors(args.startColor, args.endColor);
    RunSolid(args, mid1, mid2);
  }

  /**
   * The solid strip of a run, drawn by `create_solid_background`: one row of
   * 2048 pixels, every one the end colour.
   */
  lemma RunSolidDrawn(args: Args, mid1: string, mid2: string)
    requires args.style == SolidStyle && MatchesColorPattern(args.endColor)
    ensures var a := Run(args, mid1, mid2)[3];
            && a.SolidImage? && |a.color| > 0 && a.color[0] == '#' && Parsable(a.color)
            && |SolidBackground(a.width, a.height, a.color)| == 1
            && |SolidBackground(a.width, a.height, a.color)[0]| == SolidHeaderWidth
            && forall x :: 0 <= x < SolidHeaderWidth ==>
                 SolidBackground(a.width, a.height, a.color)[0][x] == HexToRgb(args.endColor)
  {
    RunSolid(args, mid1, mid2);
    PatternIsParsable(args.endColor);
  }

  /** A solid strip in `#112233` is 2048 pixels of red 0x11, green 0x22 and blue 0x33. */
  lemma SolidStripOfOneColor()
    ensures Parsable("#112233")
    ensures forall x :: 0 <= x < SolidHeaderWidth ==>
              SolidBackground(SolidHeaderWidth, 1, "#112233")[0][x] == Rgb(0x11, 0x22, 0x33)
  {
    var s := "#112233";
    assert MatchesColorPattern(s);
    PatternIsParsable(s);
    var t := StripHashes(s);
    assert t[..6] == "112233";
    assert HexToRgb(s) == Rgb(ParseByte('1', '1'), ParseByte('2', '2'), ParseByte('3', '3'));
  }

  /** The colours a run draws with: the two endpoints, the two midpoints and the logo colour. */
  function Palette(args: Args, mid1: string, mid2: string): set<string> {
    {args.startColor, mid1, mid2, args.endColor, LogoColor(args)}
  }

  /** Every colour a file's drawing call hands to `hex_to_rgb` is in `palette`. */
  predicate DrawsFrom(a: Artifact, palette: set<string>) {
    match a
    case PropertiesFile(_, _, _, _, _, _) => true
    case TextImage(_, color, _, _) => color in palette
    case GradientImage(_, _, startColor, endColor, _) => startColor in palette && endColor in palette
    case SolidImage(_, _, _, color) => color in palette
  }

  lemma RunDrawsFromPalette(args: Args, mid1: string, mid2: string)
    ensures var files := Run(args, mid1, mid2);
            forall j :: 0 <= j < |files| ==> DrawsFrom(files[j], Palette(args, mid1, mid2))
  {
    var files := Run(args, mid1, mid2);
    RunShape(args, mid1, mid2);
    forall j | 3 <= j < |files| - 1
      ensures DrawsFrom(files[j], Palette(args, mid1, mid2))
    {
      assert files[j] == files[3..|files| - 1][j - 3];
    }
  }

  /**
   * Every colour the planned calls hand to `hex_to_rgb` is one it parses,
   * and the text colours start with '#': once validation passes, the
   * malformed-colour path cannot be reached.
   */
  lemma PlannedColorsParse(args: Args)
    requires Plan(args).Ok?
    ensures var (mid1, mid2) := CalculateMiddleColors(args.startColor, args.endColor);
            var palette := Palette(args, mid1, mid2);
            && (forall j :: 0 <= j < |Plan(args).value| ==> DrawsFrom(Plan(args).value[j], palette))
            && (forall c :: c in palette ==> |c| > 0 && c[0] == '#' && Parsable(c))
  {
    Accepted(args);
    var (mid1, mid2) := CalculateMiddleColors(args.startColor, args.endColor);
    PaletteParses(args, mid1, mid2);
    RunDrawsFromPalette(args, mid1, mid2);
  }

  /** Colours that pass validation, and midpoints in canonical form, all parse. */
  lemma PaletteParses(args: Args, mid1: string, mid2: string)
    requires MatchesColorPattern(args.startColor) && MatchesColorPattern(args.endColor)
    requires MatchesColorPattern(LogoColor(args))
    requires IsCanonicalHex(mid1) && IsCanonicalHex(mid2)
    ensures forall c :: c in Palette(args, mid1, mid2) ==> |c| > 0 && c[0] == '#' && Parsable(c)
  {
    forall c | c in Palette(args, mid1, mid2)
      ensures |c| > 0 && c[0] == '#' && Parsable(c)
    {
      if IsCanonicalHex(c) {
        CanonicalIsParsable(c);
      } else {
        PatternIsParsable(c);
      }
    }
  }

  /** Middle colours as `calculate_middle_colors` leaves them: parsing back to `MiddleRgb`. */
  predicate Midpoints(startColor: string, mid1: string, mid2: string, endColor: string) {
    && Parsable(startColor) && Parsable(mid1) && Parsable(mid2) && Parsable(endColor)
    && (HexToRgb(mid1), HexToRgb(mid2)) == MiddleRgb(HexToRgb(startColor), HexToRgb(endColor))
  }

  /** The planned midpoints parse back to the midpoints `MiddleRgb` computes. */
  lemma MidpointsParse(startColor: string, endColor: string)
    requires Parsable(startColor) && Parsable(endColor)
    ensures var (mid1, mid2) := CalculateMiddleColors(startColor, endColor);
            Midpoints(startColor, mid1, mid2, endColor)
  {
    var (mid1, mid2) := CalculateMiddleColors(startColor, endColor);
    var (m1, m2) := MiddleRgb(HexToRgb(startColor), HexToRgb(endColor));
    MiddlesValid(HexToRgb(startColor), HexToRgb(endColor));
    RgbToHexToRgb(m1);
    RgbToHexToRgb(m2);
  }

  /** The six gradient strips, as `Headers` lays them out. */
  lemma GradientStrips(startColor: string, mid1: string, mid2: string, endColor: string)
    ensures var hs := Headers(GradientStyle, startColor, mid1, mid2, endColor);
            && (forall k :: 0 <= k < 6 ==> hs[k].GradientImage? && hs[k].width == HeaderWidth)
            && (forall k :: 0 <= k < 6 ==> hs[k].rtl == (k >= 3))
            && hs[0].startColor == startColor && hs[0].endColor == mid1
            && hs[1].startColor == mid1 && hs[1].endColor == mid2
            && hs[2].startColor == mid2 && hs[2].endColor == endColor
            && (forall k :: 0 <= k < 3 ==>
                  hs[k + 3].startColor == hs[k].startColor && hs[k + 3].endColor == hs[k].endColor)
  {
  }

  /** Strip `j` of the gradient headers, drawn, is segment `j` of the header. */
  lemma HeaderStripDrawn(startColor: string, mid1: string, mid2: string, endColor: string, j: nat)
    requires j < 3 && Midpoints(startColor, mid1, mid2, endColor)
    ensures var a := Headers(GradientStyle, startColor, mid1, mid2, endColor)[j];
            && a.GradientImage? && a.width == HeaderWidth && !a.rtl
            && Parsable(a.startColor) && Parsable(a.endColor)
            && Strip(HexToRgb(a.startColor), HexToRgb(a.endColor), a.width, a.rtl)
               == Segment(HexToRgb(startColor), HexToRgb(endColor), HeaderWidth, j)
  {
    var s, e := HexToRgb(startColor), HexToRgb(endColor);
    var (m1, m2) := MiddleRgb(s, e);
    var a := Headers(GradientStyle, startColor, mid1, mid2, endColor)[j];
    GradientStrips(startColor, mid1, mid2, endColor);
    if j == 0 {
      assert (a.startColor, a.endColor) == (startColor, mid1);
    } else if j == 1 {
      assert (a.startColor, a.endColor) == (mid1, mid2);
    } else {
      assert (a.startColor, a.endColor) == (mid2, endColor);
    }
  }

  /**
   * Strip `j` of a gradient run, drawn by `create_gradient`, is segment `j`
   * of the three-segment header from the start colour to the end colour.
   */
  lemma RunStrip(args: Args, mid1: string, mid2: string, j: nat)
    requires args.style == GradientStyle && j < 3
    requires Midpoints(args.startColor, mid1, mid2, args.endColor)
    ensures var a := Run(args, mid1, mid2)[3 + j];
            && a.GradientImage? && !a.rtl && a.width == HeaderWidth
            && Parsable(a.startColor) && Parsable(a.endColor)
            && Strip(HexToRgb(a.startColor), HexToRgb(a.endColor), a.width, a.rtl)
               == Segment(HexToRgb(args.startColor), HexToRgb(args.endColor), HeaderWidth, j)
  {
    var hs := Headers(GradientStyle, args.startColor, mid1, mid2, args.endColor);
    RunShape(args, mid1, mid2);
    GradientStrips(args.startColor, mid1, mid2, args.endColor);
    assert Run(args, mid1, mid2)[3 + j] == hs[j];
    HeaderStripDrawn(args.startColor, mid1, mid2, args.endColor, j);
  }

  /** The two logos split into the lines the layout places: one line, and two. */
  lemma LogoLines(color: string, glow: bool, antialias: bool)
    ensures SplitLines(BrandingLogoSpec(color, glow, antialias).text) == ["AB"]
    ensures SplitLines(AdminLogoSpec(color, glow, antialias).text) == ["Automate", "Builders"]
  {
    OneLineLogoText();
    TwoLineLogoText();
  }
}

=== FILE: colors.dfy ===
/**
 * Colour utilities of script.py: `hex_to_rgb`, `rgb_to_hex`,
 * `calculate_middle_colors`, and the brightened glow colour used by
 * `create_transparent_image_with_text`.
 */
module Colors {
  import opened Hex

  predicate InByte(v: int) {
    0 <= v <= 255
  }

  /** A colour as the source's `(r, g, b)` tuple of Python integers. */
  datatype Rgb = Rgb(r: int, g: int, b: int) {
    predicate Valid() {
      InByte(r) && InByte(g) && InByte(b)
    }
  }

  /** Channel `k` of a colour: 0 is red, 1 green, 2 blue. */
  function Channel(c: Rgb, k: nat): int
    requires k < 3
  {
    if k == 0 then c.r else if k == 1 then c.g else c.b
  }

  /** `s.lstrip('#')`: drops every leading '#' and nothing else. */
  function StripHashes(s: string): (t: string)
    ensures |t| <= |s| && t == s[|s| - |t|..]
    ensures t == [] || t[0] != '#'
    decreases |s|
  {
    if |s| > 0 && s[0] == '#' then StripHashes(s[1..]) else s
  }

  /** What `lstrip('#')` removes is a run of '#' and nothing else. */
  lemma {:induction false} StripHashesRemovesOnlyHashes(s: string)
    ensures forall i :: 0 <= i < |s| - |StripHashes(s)| ==> s[i] == '#'
    decreases |s|
  {
    if |s| > 0 && s[0] == '#' {
      StripHashesRemovesOnlyHashes(s[1..]);
    }
  }

  /** A string that does not start with '#' is left alone. */
  lemma NoLeadingHash(s: string)
    requires |s| > 0 && s[0] != '#'
    ensures StripHashes(s) == s
  {
  }

  /**
   * The strings `hex_to_rgb` reads as three clean two-digit groups: once the
   * leading '#' characters are gone, the first six characters are
   * hexadecimal digits. Anything after them is never looked at.
   */
  predicate Parsable(s: string) {
    var t := StripHashes(s);
    |t| >= 6 && AllHexDigits(t[..6])
  }

  /** `hex_to_rgb`: the groups at offsets 0, 2 and 4 of the stripped string. */
  function HexToRgb(s: string): (c: Rgb)
    requires Parsable(s)
    ensures c.Valid()
  {
    var d := StripHashes(s)[..6];
    Rgb(ParseByte(d[0], d[1]), ParseByte(d[2], d[3]), ParseByte(d[4], d[5]))
  }

  /** `rgb_to_hex`: '#' followed by each channel as `{:02X}`. */
  function RgbToHex(c: Rgb): (s: string)
    ensures c.Valid() ==> IsCanonicalHex(s)
  {
    "#" + Format02X(c.r) + Format02X(c.g) + Format02X(c.b)
  }

  /** Text in the canonical form `rgb_to_hex` writes: '#' and six upper-case digits. */
  predicate IsCanonicalHex(s: string) {
    |s| == 7 && s[0] == '#' && AllUpperHexDigits(s[1..])
  }

  /** Canonical text passes the command-line pattern and is what `hex_to_rgb` parses. */
  lemma CanonicalIsParsable(s: string)
    requires IsCanonicalHex(s)
    ensures MatchesColorPattern(s) && Parsable(s)
    ensures StripHashes(s) == s[1..]
  {
    NoLeadingHash(s[1..]);
  }

  /** A colour survives formatting and parsing unchanged. */
  lemma {:induction false} RgbToHexToRgb(c: Rgb)
    requires c.Valid()
    ensures Parsable(RgbToHex(c))
    ensures HexToRgb(RgbToHex(c)) == c
  {
    var fr, fg, fb := Format02X(c.r), Format02X(c.g), Format02X(c.b);
    var t := fr + fg + fb;
    assert RgbToHex(c) == "#" + t;
    assert t[0] == fr[0] && t[1] == fr[1];
    assert t[2] == fg[0] && t[3] == fg[1];
    assert t[4] == fb[0] && t[5] == fb[1];
    ByteRoundTrip(c.r);
    ByteRoundTrip(c.g);
    ByteRoundTrip(c.b);
    ReadSixDigits(t);
  }

  /** `hex_to_rgb` of '#' and six digits reads the three pairs. */
  lemma ReadSixDigits(t: string)
    requires |t| == 6 && AllHexDigits(t)
    ensures Parsable("#" + t)
    ensures HexToRgb("#" + t) == Rgb(ParseByte(t[0], t[1]), ParseByte(t[2], t[3]), ParseByte(t[4], t[5]))
  {
    assert ("#" + t)[1..] == t;
    NoLeadingHash(t);
  }

  /** One channel: its two `{:02X}` digits parse back to it. */
  lemma ByteRoundTrip(n: int)
    requires 0 <= n < 256
    ensures var f := Format02X(n); |f| == 2 && IsHexDigit(f[0]) && IsHexDigit(f[1]) && ParseByte(f[0], f[1]) == n
  {
  }

  /**
   * Parsing then formatting gives the six digits `hex_to_rgb` read,
   * upper-cased, behind a single '#'.
   */
  lemma {:induction false} HexToRgbToHex(s: string)
    requires Parsable(s)
    ensures RgbToHex(HexToRgb(s)) == "#" + Upper(StripHashes(s)[..6])
  {
    var t := StripHashes(s);
    var c := HexToRgb(s);
    FormatParseByte(t[0], t[1]);
    FormatParseByte(t[2], t[3]);
    FormatParseByte(t[4], t[5]);
    var u := Upper(t[..6]);
    UpperOfSix(t[..6]);
    FormattedAs(c, u);
  }

  lemma FormattedAs(c: Rgb, u: string)
    requires |u| == 6
    requires Format02X(c.r) == [u[0], u[1]] && Format02X(c.g) == [u[2], u[3]]
    requires Format02X(c.b) == [u[4], u[5]]
    ensures RgbToHex(c) == "#" + u
  {
  }

  lemma UpperOfSix(d: string)
    requires |d| == 6 && AllHexDigits(d)
    ensures Upper(d)[0] == UpperChar(d[0]) && Upper(d)[1] == UpperChar(d[1])
    ensures Upper(d)[2] == UpperChar(d[2]) && Upper(d)[3] == UpperChar(d[3])
    ensures Upper(d)[4] == UpperChar(d[4]) && Upper(d)[5] == UpperChar(d[5])
  {
  }

  /** The round trip for an argument written as '#' and six hexadecimal digits. */
  lemma {:induction false} SixDigitRoundTrip(digits: string)
    requires |digits| == 6 && AllHexDigits(digits)
    ensures Parsable("#" + digits)
    ensures HexToRgb("#" + digits).Valid()
    ensures RgbToHex(HexToRgb("#" + digits)) == "#" + Upper(digits)
  {
    var s := "#" + digits;
    assert s[1..] == digits;
    NoLeadingHash(digits);
    assert StripHashes(s) == digits;
    assert digits[..6] == digits;
    HexToRgbToHex(s);
  }

  /** Every string the command-line pattern admits is one `hex_to_rgb` parses. */
  lemma PatternIsParsable(s: string)
    requires MatchesColorPattern(s)
    ensures Parsable(s)
    ensures StripHashes(s)[..6] == s[1..7]
  {
    var t := s[1..];
    assert s[1..7][0] == t[0];
    NoLeadingHash(t);
    assert StripHashes(s) == t;
    assert t[..6] == s[1..7];
  }

  // ---------------------------------------------------------------------
  // Midpoints

  /**
   * `v` is `s + (num * (e - s)) // 3` with Python's floor division, stated
   * without division: `v - s` is the largest integer whose triple does not
   * exceed `num * (e - s)`.
   */
  predicate FloorThirds(s: int, e: int, num: int, v: int) {
    3 * (v - s) <= num * (e - s) < 3 * (v - s) + 3
  }

  predicate Between(a: int, b: int, v: int) {
    (a <= v <= b) || (b <= v <= a)
  }

  predicate ChannelsBetween(a: Rgb, b: Rgb, v: Rgb) {
    Between(a.r, b.r, v.r) && Between(a.g, b.g, v.g) && Between(a.b, b.b, v.b)
  }

  /** One channel of `first_middle` and `second_middle`. */
  function ThirdsOf(s: int, e: int): (m: (int, int))
    ensures FloorThirds(s, e, 1, m.0)
    ensures FloorThirds(s, e, 2, m.1)
  {
    var diff := e - s;
    (s + diff / 3, s + (diff * 2) / 3)
  }

  /** The two colours a third and two thirds of the way from `s` to `e`. */
  function MiddleRgb(s: Rgb, e: Rgb): (m: (Rgb, Rgb))
    ensures FloorThirds(s.r, e.r, 1, m.0.r) && FloorThirds(s.g, e.g, 1, m.0.g)
            && FloorThirds(s.b, e.b, 1, m.0.b)
    ensures FloorThirds(s.r, e.r, 2, m.1.r) && FloorThirds(s.g, e.g, 2, m.1.g)
            && FloorThirds(s.b, e.b, 2, m.1.b)
  {
    var r := ThirdsOf(s.r, e.r);
    var g := ThirdsOf(s.g, e.g);
    var b := ThirdsOf(s.b, e.b);
    (Rgb(r.0, g.0, b.0), Rgb(r.1, g.1, b.1))
  }

  /** `calculate_middle_colors`: both midpoints in canonical hexadecimal form. */
  function CalculateMiddleColors(startColor: string, endColor: string): (m: (string, string))
    requires Parsable(startColor) && Parsable(endColor)
    ensures IsCanonicalHex(m.0) && IsCanonicalHex(m.1)
  {
    var mids := MiddleRgb(HexToRgb(startColor), HexToRgb(endColor));
    MiddlesValid(HexToRgb(startColor), HexToRgb(endColor));
    (RgbToHex(mids.0), RgbToHex(mids.1))
  }

  /**
   * Per channel, both midpoints lie between start and end; the first lies
   * between start and the second, and the second between the first and end.
   */
  lemma {:induction false} ThirdsOrdered(s: int, e: int)
    ensures Between(s, e, ThirdsOf(s, e).0) && Between(s, e, ThirdsOf(s, e).1)
    ensures Between(s, ThirdsOf(s, e).1, ThirdsOf(s, e).0)
    ensures Between(ThirdsOf(s, e).0, e, ThirdsOf(s, e).1)
    ensures s <= e ==> s <= ThirdsOf(s, e).0 <= ThirdsOf(s, e).1 <= e
    ensures e <= s ==> e <= ThirdsOf(s, e).1 <= ThirdsOf(s, e).0 <= s
  {
    var m := ThirdsOf(s, e);
    assert FloorThirds(s, e, 1, m.0) && FloorThirds(s, e, 2, m.1);
  }

  lemma {:induction false} MiddlesBetween(s: Rgb, e: Rgb)
    ensures ChannelsBetween(s, e, MiddleRgb(s, e).0)
    ensures ChannelsBetween(s, e, MiddleRgb(s, e).1)
    ensures ChannelsBetween(s, MiddleRgb(s, e).1, MiddleRgb(s, e).0)
    ensures ChannelsBetween(MiddleRgb(s, e).0, e, MiddleRgb(s, e).1)
  {
    ThirdsOrdered(s.r, e.r);
    ThirdsOrdered(s.g, e.g);
    ThirdsOrdered(s.b, e.b);
  }

  /** Midpoints of two valid colours are valid colours. */
  lemma {:induction false} MiddlesValid(s: Rgb, e: Rgb)
    requires s.Valid() && e.Valid()
    ensures MiddleRgb(s, e).0.Valid() && MiddleRgb(s, e).1.Valid()
  {
    MiddlesBetween(s, e);
  }

  /** A gradient from a colour to itself has that colour at both midpoints. */
  lemma MiddlesOfOneColor(c: Rgb)
    ensures MiddleRgb(c, c) == (c, c)
  {
  }

  /** The same, for the text form: both midpoints are the start colour, formatted. */
  lemma {:induction false} MiddleColorsOfOneColor(color: string)
    requires Parsable(color)
    ensures CalculateMiddleColors(color, color) == (RgbToHex(HexToRgb(color)), RgbToHex(HexToRgb(color)))
  {
    MiddlesOfOneColor(HexToRgb(color));
  }

  /** Black to white: 255 splits into thirds of 85 and 170. */
  lemma BlackToWhiteMiddles()
    ensures Parsable("#000000") && Parsable("#FFFFFF")
    ensures CalculateMiddleColors("#000000", "#FFFFFF") == ("#555555", "#AAAAAA")
  {
    var black := Rgb(0, 0, 0);
    var white := Rgb(255, 255, 255);
    ParsesTo("#000000", black);
    ParsesTo("#FFFFFF", white);
    BlackWhiteThirds();
    FormatsTo(Rgb(85, 85, 85), "#555555");
    FormatsTo(Rgb(170, 170, 170), "#AAAAAA");
  }

  lemma BlackWhiteThirds()
    ensures MiddleRgb(Rgb(0, 0, 0), Rgb(255, 255, 255)) == (Rgb(85, 85, 85), Rgb(170, 170, 170))
  {
  }

  lemma ParsesTo(s: string, c: Rgb)
    requires s == "#000000" || s == "#FFFFFF"
    requires c == (if s == "#000000" then Rgb(0, 0, 0) else Rgb(255, 255, 255))
    ensures Parsable(s) && HexToRgb(s) == c
  {
    var d := if s == "#000000" then '0' else 'F';
    var t := [d, d, d, d, d, d];
    assert s == "#" + t;
    ReadSixDigits(t);
    assert ParseByte(d, d) == c.r == c.g == c.b;
  }

  lemma FormatsTo(c: Rgb, s: string)
    requires c == Rgb(85, 85, 85) || c == Rgb(170, 170, 170)
    requires s == (if c.r == 85 then "#555555" else "#AAAAAA")
    ensures RgbToHex(c) == s
  {
    if c.r == 85 {
      assert Format02X(85) == "55" by {
        assert Digits(85) == Digits(5) + [DigitChar(5)];
      }
      FormattedAs(c, "555555");
    } else {
      assert Format02X(170) == "AA" by {
        assert Digits(170) == Digits(10) + [DigitChar(10)];
      }
      FormattedAs(c, "AAAAAA");
    }
  }

  // ---------------------------------------------------------------------
  // Glow

  /** How much the glow adds to each channel of the text colour. */
  const GlowBrightening := 120

  /** `min(v + 120, 255)`. */
  function Brighten(v: int): (w: int)
    ensures w <= 255
    ensures w == v + GlowBrightening || w == 255
    ensures w == 255 <==> v >= 135
    ensures v <= w <==> v <= 255
  {
    if v + GlowBrightening < 255 then v + GlowBrightening else 255
  }

  /** The glow colour: every channel brightened by 120 and capped at 255. */
  function GlowColor(c: Rgb): (g: Rgb)
    ensures c.Valid() ==> g.Valid()
    ensures c.Valid() ==> c.r <= g.r && c.g <= g.g && c.b <= g.b
    ensures g.r == 255 <==> c.r >= 135
    ensures g.g == 255 <==> c.g >= 135
    ensures g.b == 255 <==> c.b >= 135
  {
    Rgb(Brighten(c.r), Brighten(c.g), Brighten(c.b))
  }
}

=== FILE: gradient.dfy ===
/**
 * `create_gradient` and `create_solid_background`: one-pixel-tall header
 * strips. Pixels are modelled as a sequence indexed by column.
 *
 * The source steps with floats, `int(start + (end - start) / (width - 1) * x)`;
 * here the step is the exact rational and `int(...)` truncates it toward zero.
 */
module Gradient {
  import opened Colors
  import opened Arith

  /** Python's `int(a / d)` for a positive `d`: the quotient truncated toward zero. */
  function TruncDiv(a: int, d: int): (q: int)
    requires d > 0
    ensures 0 <= a ==> 0 <= q && q * d <= a < q * d + d
    ensures a < 0 ==> q <= 0 && q * d - d < a <= q * d
  {
    if a >= 0 then a / d else -((-a) / d)
  }

  /** An exact multiple of the divisor divides without rounding, whatever its sign. */
  lemma TruncExact(k: int, d: int)
    requires d > 0
    ensures TruncDiv(k * d, d) == k
  {
    if k >= 0 {
      MulMonotone(d, 0, k);
      DivUnique(k * d, d, k, 0);
    } else {
      MulMonotone(d, k, -1);
      assert -(k * d) == (-k) * d;
      DivUnique((-k) * d, d, -k, 0);
    }
  }

  /** One channel of step `x`: `int(s + (e - s) / (w - 1) * x)` over the rationals. */
  function Ramp(s: int, e: int, w: int, x: int): (v: int)
    requires w >= 2
    ensures x == 0 ==> v == s
    ensures x == w - 1 ==> v == e
  {
    TruncExact(s, w - 1);
    TruncExact(e, w - 1);
    assert s * (w - 1) + (e - s) * (w - 1) == e * (w - 1);
    TruncDiv(s * (w - 1) + (e - s) * x, w - 1)
  }

  /** The colour computed at step `x`. */
  function StepColor(s: Rgb, e: Rgb, w: int, x: int): (c: Rgb)
    requires w >= 2
    ensures x == 0 ==> c == s
    ensures x == w - 1 ==> c == e
  {
    Rgb(Ramp(s.r, e.r, w, x), Ramp(s.g, e.g, w, x), Ramp(s.b, e.b, w, x))
  }

  /** The column step `x` is written to: mirrored when `rtl`. */
  function Column(w: int, x: int, rtl: bool): (col: int)
    requires 0 <= x < w
    ensures 0 <= col < w
  {
    if rtl then w - 1 - x else x
  }

  /** Mirroring twice lands on the step it started from. */
  lemma ColumnInvolution(w: int, x: int, rtl: bool)
    requires 0 <= x < w
    ensures Column(w, Column(w, x, rtl), rtl) == x
  {
  }

  /**
   * The finished strip: the pixel in column `col` is the colour of the step
   * written there. `Column` is its own inverse, so that step is `Column(col)`.
   */
  function Strip(s: Rgb, e: Rgb, w: int, rtl: bool): (image: seq<Rgb>)
    requires w >= 2
    ensures |image| == w
  {
    seq(w, col requires 0 <= col < w => StepColor(s, e, w, Column(w, col, rtl)))
  }

  const Black := Rgb(0, 0, 0)

  /** Whether step `x` of the loop has already painted column `col`. */
  predicate Painted(w: int, col: int, x: int, rtl: bool) {
    if rtl then w - x <= col else col < x
  }

  /**
   * `create_gradient(width, start_color, end_color, rtl)`: parses both
   * colours and paints the strip. Returns the strip and the columns in the
   * order `putpixel` wrote them.
   */
  method CreateGradient(width: int, startColor: string, endColor: string, rtl: bool)
    returns (image: seq<Rgb>, written: seq<int>)
    requires width >= 2
    requires Parsable(startColor) && Parsable(endColor)
    ensures image == Strip(HexToRgb(startColor), HexToRgb(endColor), width, rtl)
    ensures |written| == width
    ensures forall x :: 0 <= x < width ==> 0 <= written[x] < width
    ensures forall x, y :: 0 <= x < y < width ==> written[x] != written[y]
    ensures forall x :: 0 <= x < width ==> written[x] == (if rtl then width - 1 - x else x)
  {
    image, written := PaintSteps(HexToRgb(startColor), HexToRgb(endColor), width, rtl);
  }

  /**
   * The loop of `create_gradient`: starting from a black
   * `Image.new('RGB', (width, 1))`, step `x` computes its colour and puts
   * it at column `Column(width, x, rtl)`.
   */
  method PaintSteps(s: Rgb, e: Rgb, width: int, rtl: bool) returns (image: seq<Rgb>, written: seq<int>)
    requires width >= 2
    ensures image == Strip(s, e, width, rtl)
    ensures |written| == width
    ensures forall x :: 0 <= x < width ==> written[x] == Column(width, x, rtl)
    ensures forall x, y :: 0 <= x < y < width ==> written[x] != written[y]
  {
    image := seq(width, _ => Black);
    written := [];
    var x := 0;
    while x < width
      invariant 0 <= x <= width
      invariant |image| == width
      invariant |written| == x
      invariant forall i :: 0 <= i < x ==> written[i] == Column(width, i, rtl)
      invariant forall col :: 0 <= col < width ==>
                  image[col] == (if Painted(width, col, x, rtl)
                                 then StepColor(s, e, width, Column(width, col, rtl)) else Black)
    {
      var pos := if rtl then width - 1 - x else x;
      var pixel := StepColor(s, e, width, x);
      image := image[pos := pixel];
      written := written + [pos];
      x := x + 1;
    }
  }

  /** `create_solid_background`: every pixel of a `width` by `height` image is the colour. */
  function SolidBackground(width: nat, height: nat, color: string): (rows: seq<seq<Rgb>>)
    requires |color| > 0 && color[0] == '#' && Parsable(color)
    ensures |rows| == height
    ensures forall y :: 0 <= y < height ==> |rows[y]| == width
    ensures forall y, x :: 0 <= y < height && 0 <= x < width ==> rows[y][x] == HexToRgb(color)
  {
    seq(height, _ => seq(width, _ => HexToRgb(color)))
  }

  // ---------------------------------------------------------------------
  // One channel

  /** With channels that are never negative, `int()` truncation is floor division. */
  lemma {:induction false} RampFloor(s: int, e: int, w: int, x: int)
    requires 0 <= s && 0 <= e && w >= 2 && 0 <= x <= w - 1
    ensures 0 <= s * (w - 1) + (e - s) * x
    ensures Ramp(s, e, w, x) == s + ((e - s) * x) / (w - 1)
  {
    var d := w - 1;
    var p := (e - s) * x;
    if e < s {
      MulMonotone(s - e, x, d);
      assert (s - e) * x == -p;
      assert s * d + (e - s) * d == e * d;
      MulMonotone(e, 0, d);
    } else {
      MulMonotone(e - s, 0, x);
      MulMonotone(s, 0, d);
    }
    assert 0 <= s * d + p;
    DivShift(s, p, d);
  }

  /** Step 0 is the start, step `w - 1` the end: the float rounding aside, the ramp hits both. */
  lemma {:induction false} RampEnds(s: int, e: int, w: int)
    requires 0 <= s && 0 <= e && w >= 2
    ensures Ramp(s, e, w, 0) == s
    ensures Ramp(s, e, w, w - 1) == e
  {
    RampFloor(s, e, w, 0);
    RampFloor(s, e, w, w - 1);
    DivShift(e - s, 0, w - 1);
  }

  /** Every step lies between the two ends. */
  lemma {:induction false} RampBetween(s: int, e: int, w: int, x: int)
    requires 0 <= s && 0 <= e && w >= 2 && 0 <= x <= w - 1
    ensures Between(s, e, Ramp(s, e, w, x))
  {
    RampFloor(s, e, w, x);
    DivBetween(e - s, x, w - 1);
  }

  /** Steps move in one direction: towards the end colour. */
  lemma {:induction false} RampMonotone(s: int, e: int, w: int, x: int, y: int)
    requires 0 <= s && 0 <= e && w >= 2 && 0 <= x <= y <= w - 1
    ensures s <= e ==> Ramp(s, e, w, x) <= Ramp(s, e, w, y)
    ensures e <= s ==> Ramp(s, e, w, y) <= Ramp(s, e, w, x)
  {
    RampFloor(s, e, w, x);
    RampFloor(s, e, w, y);
    var px, py := (e - s) * x, (e - s) * y;
    if s <= e {
      MulMonotone(e - s, x, y);
      DivMonotone(px, py, w - 1);
    } else {
      MulMonotone(s - e, x, y);
      assert (s - e) * x == -px && (s - e) * y == -py;
      DivMonotone(py, px, w - 1);
    }
  }

  // ---------------------------------------------------------------------
  // Whole strips

  /** The right-to-left strip is the left-to-right strip read backwards. */
  lemma MirrorStrip(s: Rgb, e: Rgb, w: int)
    requires w >= 2
    ensures forall col :: 0 <= col < w ==> Strip(s, e, w, true)[col] == Strip(s, e, w, false)[w - 1 - col]
  {
  }

  /**
   * Left to right, column 0 holds the start colour and the last column the
   * end colour; right to left, the other way round.
   */
  lemma {:induction false} StripEnds(s: Rgb, e: Rgb, w: int)
    requires s.Valid() && e.Valid() && w >= 2
    ensures Strip(s, e, w, false)[0] == s && Strip(s, e, w, false)[w - 1] == e
    ensures Strip(s, e, w, true)[w - 1] == s && Strip(s, e, w, true)[0] == e
  {
    RampEnds(s.r, e.r, w);
    RampEnds(s.g, e.g, w);
    RampEnds(s.b, e.b, w);
  }

  /** Every pixel of a strip lies, channel by channel, between its two end colours. */
  lemma {:induction false} StripBetween(s: Rgb, e: Rgb, w: int, rtl: bool, col: int)
    requires s.Valid() && e.Valid() && w >= 2 && 0 <= col < w
    ensures ChannelsBetween(s, e, Strip(s, e, w, rtl)[col])
    ensures Strip(s, e, w, rtl)[col].Valid()
  {
    var x := Column(w, col, rtl);
    RampBetween(s.r, e.r, w, x);
    RampBetween(s.g, e.g, w, x);
    RampBetween(s.b, e.b, w, x);
  }

  /** A gradient between one colour and itself is a solid strip of that colour. */
  lemma {:induction false} FlatStrip(c: Rgb, w: int, rtl: bool)
    requires c.Valid() && w >= 2
    ensures forall col :: 0 <= col < w ==> Strip(c, c, w, rtl)[col] == c
  {
    forall col | 0 <= col < w
      ensures Strip(c, c, w, rtl)[col] == c
    {
      StripBetween(c, c, w, rtl, col);
    }
  }

  /** At width 2 a strip is its two end colours and nothing else: black then white for black to white. */
  lemma {:induction false} TwoPixelStrip(s: Rgb, e: Rgb)
    requires s.Valid() && e.Valid()
    ensures Strip(s, e, 2, false) == [s, e]
    ensures Strip(s, e, 2, true) == [e, s]
  {
    StripEnds(s, e, 2);
  }

  // ---------------------------------------------------------------------
  // The three-segment header

  function ChannelOf(strip: seq<Rgb>, k: nat): (xs: seq<int>)
    requires k < 3
    ensures |xs| == |strip|
  {
    seq(|strip|, i requires 0 <= i < |strip| => Channel(strip[i], k))
  }

  predicate Ascending(xs: seq<int>) {
    forall i, j :: 0 <= i <= j < |xs| ==> xs[i] <= xs[j]
  }

  predicate Descending(xs: seq<int>) {
    forall i, j :: 0 <= i <= j < |xs| ==> xs[j] <= xs[i]
  }

  /** The values run from `a` to `b` without turning back. */
  predicate Monotone(xs: seq<int>, a: int, b: int) {
    (a <= b ==> Ascending(xs)) && (b <= a ==> Descending(xs))
  }

  lemma {:induction false} ChannelOfConcat(a: seq<Rgb>, b: seq<Rgb>, k: nat)
    requires k < 3
    ensures ChannelOf(a + b, k) == ChannelOf(a, k) + ChannelOf(b, k)
  {
  }

  /** A left-to-right strip's channel is a monotone run from start to end. */
  lemma {:induction false} StripMonotone(s: Rgb, e: Rgb, w: int, k: nat)
    requires s.Valid() && e.Valid() && w >= 2 && k < 3
    ensures Monotone(ChannelOf(Strip(s, e, w, false), k), Channel(s, k), Channel(e, k))
    ensures ChannelOf(Strip(s, e, w, false), k)[0] == Channel(s, k)
    ensures ChannelOf(Strip(s, e, w, false), k)[w - 1] == Channel(e, k)
  {
    var xs := ChannelOf(Strip(s, e, w, false), k);
    var cs, ce := Channel(s, k), Channel(e, k);
    assert forall x :: 0 <= x < w ==> xs[x] == Ramp(cs, ce, w, x);
    RampEnds(cs, ce, w);
    forall i, j | 0 <= i <= j < w
      ensures cs <= ce ==> xs[i] <= xs[j]
      ensures ce <= cs ==> xs[j] <= xs[i]
    {
      RampMonotone(cs, ce, w, i, j);
    }
  }

  /** Two runs in the same direction, the first ending where the second may start, make one run. */
  lemma {:induction false} ConcatMonotone(a: seq<int>, b: seq<int>, lo: int, hi: int)
    requires |a| >= 1 && |b| >= 1
    requires Monotone(a, lo, hi) && Monotone(b, lo, hi)
    requires lo <= hi ==> a[|a| - 1] <= b[0]
    requires hi <= lo ==> b[0] <= a[|a| - 1]
    ensures Monotone(a + b, lo, hi)
  {
    var ab := a + b;
    forall i, j | 0 <= i <= j < |ab|
      ensures lo <= hi ==> ab[i] <= ab[j]
      ensures hi <= lo ==> ab[j] <= ab[i]
    {
      if i < |a| && |a| <= j {
        assert ab[i] == a[i] && ab[j] == b[j - |a|];
      }
    }
  }

  /** The four stops of the header: start, the two midpoints, end. */
  function Stops(s: Rgb, e: Rgb): (stops: seq<Rgb>)
    ensures |stops| == 4 && stops[0] == s && stops[3] == e
  {
    var (m1, m2) := MiddleRgb(s, e);
    [s, m1, m2, e]
  }

  /** Segment `j` of the header: start to first midpoint, to second midpoint, to end. */
  function Segment(s: Rgb, e: Rgb, w: int, j: nat): (seg: seq<Rgb>)
    requires w >= 2 && j < 3
    ensures |seg| == w
    ensures seg[0] == Stops(s, e)[j] && seg[w - 1] == Stops(s, e)[j + 1]
  {
    var (m1, m2) := MiddleRgb(s, e);
    if j == 0 then Strip(s, m1, w, false)
    else if j == 1 then Strip(m1, m2, w, false)
    else Strip(m2, e, w, false)
  }

  /**
   * The left-to-right header: its three segments side by side, running from
   * the start colour to the end colour, each segment beginning with the
   * colour the one before it ended with.
   */
  function Header(s: Rgb, e: Rgb, w: int): (h: seq<Rgb>)
    requires w >= 2
    ensures |h| == 3 * w
    ensures h[0] == s && h[3 * w - 1] == e
    ensures h[w - 1] == h[w] && h[2 * w - 1] == h[2 * w]
  {
    Segment(s, e, w, 0) + Segment(s, e, w, 1) + Segment(s, e, w, 2)
  }

  /**
   * Laid side by side, the three left-to-right strips form one monotone
   * interpolation per channel from the start colour to the end colour.
   */
  lemma {:induction false} HeaderMonotone(s: Rgb, e: Rgb, w: int, k: nat)
    requires s.Valid() && e.Valid() && w >= 2 && k < 3
    ensures Monotone(ChannelOf(Header(s, e, w), k), Channel(s, k), Channel(e, k))
  {
    var (m1, m2) := MiddleRgb(s, e);
    MiddlesValid(s, e);
    var cs, c1, c2, ce := Channel(s, k), Channel(m1, k), Channel(m2, k), Channel(e, k);
    ThirdsOrdered(cs, ce);
    assert (c1, c2) == ThirdsOf(cs, ce);
    var a := ChannelOf(Strip(s, m1, w, false), k);
    var b := ChannelOf(Strip(m1, m2, w, false), k);
    var c := ChannelOf(Strip(m2, e, w, false), k);
    assert Header(s, e, w) == Strip(s, m1, w, false) + Strip(m1, m2, w, false) + Strip(m2, e, w, false);
    StripMonotone(s, m1, w, k);
    StripMonotone(m1, m2, w, k);
    StripMonotone(m2, e, w, k);
    ChannelOfConcat(Strip(s, m1, w, false), Strip(m1, m2, w, false), k);
    ChannelOfConcat(Strip(s, m1, w, false) + Strip(m1, m2, w, false), Strip(m2, e, w, false), k);
    ConcatMonotone(a, b, cs, ce);
    assert (a + b)[|a + b| - 1] == b[w - 1];
    ConcatMonotone(a + b, c, cs, ce);
  }
}

=== FILE: hex.dfy ===
/**
 * Hexadecimal digits: the two-character groups read by `int(g, 16)` in
 * `hex_to_rgb`, the `{:02X}` field written by `rgb_to_hex`, and the
 * `^#[0-9A-Fa-f]{6}$` pattern `main` checks its colour arguments against.
 */
module Hex {

  predicate IsHexDigit(c: char) {
    '0' <= c <= '9' || 'A' <= c <= 'F' || 'a' <= c <= 'f'
  }

  /** The digits `{:X}` produces: no lower-case letters. */
  predicate IsUpperHexDigit(c: char) {
    '0' <= c <= '9' || 'A' <= c <= 'F'
  }

  predicate AllHexDigits(s: string) {
    forall i :: 0 <= i < |s| ==> IsHexDigit(s[i])
  }

  predicate AllUpperHexDigits(s: string) {
    forall i :: 0 <= i < |s| ==> IsUpperHexDigit(s[i])
  }

  function DigitValue(c: char): (v: nat)
    requires IsHexDigit(c)
    ensures v < 16
    ensures IsUpperHexDigit(c) || 10 <= v
  {
    if '0' <= c <= '9' then c as int - '0' as int
    else if 'A' <= c <= 'F' then c as int - 'A' as int + 10
    else c as int - 'a' as int + 10
  }

  /** The upper-case digit for a value below sixteen; the inverse of DigitValue. */
  function DigitChar(v: nat): (c: char)
    requires v < 16
    ensures IsUpperHexDigit(c)
    ensures DigitValue(c) == v
  {
    if v < 10 then ('0' as int + v) as char else ('A' as int + v - 10) as char
  }

  /** `str.upper()` restricted to hexadecimal digits. */
  function UpperChar(c: char): (u: char)
    requires IsHexDigit(c)
    ensures IsUpperHexDigit(u)
    ensures DigitValue(u) == DigitValue(c)
  {
    if 'a' <= c <= 'f' then (c as int - 32) as char else c
  }

  function Upper(s: string): (u: string)
    requires AllHexDigits(s)
    ensures |u| == |s|
    ensures AllUpperHexDigits(u)
    ensures forall i :: 0 <= i < |s| ==> DigitValue(u[i]) == DigitValue(s[i])
  {
    seq(|s|, i requires 0 <= i < |s| => UpperChar(s[i]))
  }

  /** A hexadecimal digit is determined by its value up to letter case. */
  lemma DigitCharOfValue(c: char)
    requires IsHexDigit(c)
    ensures DigitChar(DigitValue(c)) == UpperChar(c)
  {
  }

  /** The number a string of digits denotes in base sixteen, most significant first. */
  function Value(s: string): nat
    requires AllHexDigits(s)
  {
    if |s| == 0 then 0 else 16 * Value(s[..|s| - 1]) + DigitValue(s[|s| - 1])
  }

  /** `'{:X}'.format(n)` for a non-negative `n`: the shortest upper-case digit string. */
  function Digits(n: nat): (s: string)
    ensures AllUpperHexDigits(s) && AllHexDigits(s)
    ensures |s| == 1 <==> n < 16
    ensures n < 256 ==> |s| <= 2
    ensures 256 <= n ==> |s| >= 3
    decreases n
  {
    if n < 16 then [DigitChar(n)] else Digits(n / 16) + [DigitChar(n % 16)]
  }

  /** The digits of `n` denote `n` in base sixteen. */
  lemma {:induction false} DigitsValue(n: nat)
    ensures Value(Digits(n)) == n
    decreases n
  {
    var s := Digits(n);
    if n < 16 {
      assert s[..0] == [];
    } else {
      DigitsValue(n / 16);
      assert s[..|s| - 1] == Digits(n / 16);
    }
  }

  /**
   * `'{:02X}'.format(n)`: zero-padded to two characters; a negative number
   * keeps its sign in front of its digits, and a number above 255 takes
   * three or more digits.
   */
  function Format02X(n: int): (s: string)
    ensures 0 <= n < 256 ==>
              |s| == 2 && AllHexDigits(s) && 16 * DigitValue(s[0]) + DigitValue(s[1]) == n
    ensures 0 <= n ==> AllUpperHexDigits(s)
    ensures 256 <= n ==> |s| >= 3
    ensures n < 0 ==> |s| >= 2 && s[0] == '-'
  {
    if n < 0 then "-" + Digits(-n)
    else if n < 16 then ['0'] + Digits(n)
    else
      assert n < 256 ==> Digits(n) == [DigitChar(n / 16), DigitChar(n % 16)];
      Digits(n)
  }

  /** `int(hi + lo, 16)` for two hexadecimal digits. */
  function ParseByte(hi: char, lo: char): (v: nat)
    requires IsHexDigit(hi) && IsHexDigit(lo)
    ensures v < 256
  {
    16 * DigitValue(hi) + DigitValue(lo)
  }

  /** Formatting a parsed byte gives back its two digits, upper-cased. */
  lemma {:induction false} FormatParseByte(hi: char, lo: char)
    requires IsHexDigit(hi) && IsHexDigit(lo)
    ensures Format02X(ParseByte(hi, lo)) == [UpperChar(hi), UpperChar(lo)]
  {
    var v := ParseByte(hi, lo);
    var s := Format02X(v);
    DigitCharOfValue(hi);
    DigitCharOfValue(lo);
    assert DigitValue(s[0]) == DigitValue(hi) && DigitValue(s[1]) == DigitValue(lo);
    DigitCharOfValue(s[0]);
    DigitCharOfValue(s[1]);
  }

  /**
   * `re.match(r'^#[0-9A-Fa-f]{6}$', s)`: without MULTILINE, Python's `$`
   * matches at the end of the string and also just before a final newline,
   * so a trailing "\n" is accepted.
   */
  predicate MatchesColorPattern(s: string) {
    && (|s| == 7 || (|s| == 8 && s[7] == '\n'))
    && s[0] == '#'
    && AllHexDigits(s[1..7])
  }

  /**
   * The language of the colour pattern, split as the regular expression reads
   * it: a first character, six more, and whatever follows. The string matches
   * exactly when the first is '#', the six are hexadecimal digits, and what
   * follows is nothing or a single newline.
   */
  lemma ColorPatternLanguage(c: char, d: string, tail: string)
    requires |d| == 6
    ensures MatchesColorPattern([c] + d + tail)
            <==> c == '#' && AllHexDigits(d) && (tail == "" || tail == "\n")
  {
    var s := [c] + d + tail;
    assert s[0] == c && s[1..7] == d && s[7..] == tail;
    if |tail| == 1 {
      assert tail == [s[7]];
    }
  }

  /** Nothing shorter than seven characters matches. */
  lemma ShortNeverMatches(s: string)
    requires |s| < 7
    ensures !MatchesColorPattern(s)
  {
  }

  /** The pattern admits exactly the two shapes: seven characters, or eight ending in a newline. */
  lemma TrailingNewlineAccepted()
    ensures MatchesColorPattern("#FFFFFF\n")
    ensures !MatchesColorPattern("#FFFFFF\n\n")
    ensures !MatchesColorPattern("FFFFFF")
    ensures !MatchesColorPattern("red")
  {
  }
}

=== FILE: lines.dfy ===
/**
 * Python's `str.split('\n')`, used by `create_transparent_image_with_text`
 * to break the logo text into lines, and its inverse `'\n'.join`, which is
 * how the properties template's lines become one text.
 */
module Lines {

  /** `'\n'.join(lines)`. */
  function JoinLines(lines: seq<string>): string
    requires |lines| >= 1
  {
    if |lines| == 1 then lines[0] else lines[0] + "\n" + JoinLines(lines[1..])
  }

  predicate NoNewline(s: string) {
    '\n' !in s
  }

  predicate NoNewlines(lines: seq<string>) {
    forall i :: 0 <= i < |lines| ==> NoNewline(lines[i])
  }

  /** Position of the first newline in `s`. */
  function FirstNewline(s: string): (k: nat)
    requires !NoNewline(s)
    ensures k < |s| && s[k] == '\n'
    ensures NoNewline(s[..k])
  {
    if s[0] == '\n' then 0
    else
      var k := FirstNewline(s[1..]);
      assert s[..k + 1] == [s[0]] + s[1..][..k];
      k + 1
  }

  /**
   * `s.split('\n')`: the pieces between newlines, so that joining them
   * again gives `s` back. An empty string, or a trailing newline, yields
   * an empty piece, as in Python.
   */
  function SplitLines(s: string): (lines: seq<string>)
    ensures |lines| >= 1
    ensures NoNewlines(lines)
    ensures JoinLines(lines) == s
    decreases |s|
  {
    if NoNewline(s) then [s]
    else
      var k := FirstNewline(s);
      var rest := SplitLines(s[k + 1..]);
      var lines := [s[..k]] + rest;
      assert lines[1..] == rest;
      assert s == s[..k] + "\n" + s[k + 1..];
      lines
  }

  /** Splitting a join of newline-free lines recovers exactly those lines. */
  lemma {:induction false} SplitJoin(lines: seq<string>)
    requires |lines| >= 1 && NoNewlines(lines)
    ensures SplitLines(JoinLines(lines)) == lines
    decreases |lines|
  {
    if |lines| > 1 {
      var head := lines[0];
      var tail := JoinLines(lines[1..]);
      var s := head + "\n" + tail;
      assert JoinLines(lines) == s;
      var h := |head|;
      assert s[..h] == head && s[h] == '\n' && s[h + 1..] == tail;
      SplitAtFirstNewline(s, h);
      SplitJoin(lines[1..]);
      assert lines == [head] + lines[1..];
    }
  }

  /** When the first newline of `s` is at `h`, the split starts with `s[..h]`. */
  lemma SplitAtFirstNewline(s: string, h: nat)
    requires h < |s| && s[h] == '\n' && NoNewline(s[..h])
    ensures SplitLines(s) == [s[..h]] + SplitLines(s[h + 1..])
  {
    assert FirstNewline(s) == h;
  }

  /** A newline-free first line, a newline, and the rest: the split starts with that line. */
  lemma SplitFirstLine(a: string, r: string)
    requires NoNewline(a)
    ensures SplitLines(a + "\n" + r) == [a] + SplitLines(r)
  {
    var s := a + "\n" + r;
    assert s[..|a|] == a && s[|a|] == '\n' && s[|a| + 1..] == r;
    SplitAtFirstNewline(s, |a|);
  }

  /**
   * Text that starts with a line `a`, a line `k + sep + v` and an empty line
   * splits into those three first.
   */
  lemma SplitThreeLines(a: string, k: string, sep: string, v: string, s: string)
    requires NoNewline(a) && NoNewline(k + sep + v)
    requires a + "\n" + k + sep + v + "\n" + "\n" <= s
    ensures var lines := SplitLines(s);
            |lines| >= 3 && lines[0] == a && lines[1] == k + sep + v && lines[2] == ""
  {
    var b := k + sep + v;
    var head := a + "\n" + k + sep + v + "\n" + "\n";
    assert head == a + "\n" + b + "\n" + "\n";
    var r := s[|head|..];
    assert s == head + r;
    assert s == a + "\n" + (b + "\n" + ("" + "\n" + r));
    SplitFirstLine("", r);
    SplitFirstLine(b, "" + "\n" + r);
    SplitFirstLine(a, b + "\n" + ("" + "\n" + r));
  }

  /** The text the secondary logo draws is two lines. */
  lemma TwoLineLogoText()
    ensures SplitLines("Automate\nBuilders") == ["Automate", "Builders"]
  {
    assert NoNewlines(["Automate", "Builders"]);
    assert JoinLines(["Automate", "Builders"]) == "Automate\nBuilders";
    SplitJoin(["Automate", "Builders"]);
  }

  /** The text the primary logo draws is one line. */
  lemma OneLineLogoText()
    ensures SplitLines("AB") == ["AB"]
  {
  }
}

=== FILE: properties.dfy ===
/**
 * `create_properties_file`: the two `BrandingProperties.properties`
 * templates. The text is modelled as its lines, each a comment, a blank
 * line or a `key = value` entry; the file content is those lines joined
 * with newlines (no trailing newline, as in the source's string literals).
 */
module Properties {
  import opened Results
  import opened Lines

  datatype PropLine = Comment(text: string) | Blank | Entry(key: string, value: string)

  function RenderLine(line: PropLine): string {
    match line
    case Comment(text) => "#" + text
    case Blank => ""
    case Entry(key, value) => key + " = " + value
  }

  function RenderLines(lines: seq<PropLine>): (rendered: seq<string>)
    ensures |rendered| == |lines|
    ensures forall i :: 0 <= i < |lines| ==> rendered[i] == RenderLine(lines[i])
  {
    seq(|lines|, i requires 0 <= i < |lines| => RenderLine(lines[i]))
  }

  /** The file content for a template. */
  function Render(lines: seq<PropLine>): string
    requires |lines| >= 1
  {
    JoinLines(RenderLines(lines))
  }

  /** White and black as the templates write them. */
  const WhiteHex := "#FFFFFF"
  const BlackHex := "#000000"

  /** The root variant: a fixed reference to the logo image, no colours at all. */
  const RootLines: seq<PropLine> := [
    Comment("selfcare logo"),
    Entry("selfcare.companyLogoImage", "../branding/branding_logo.png")
  ]

  /** The head of the administration variant: the only lines that carry the passed colours. */
  function ColorSection(color2: string, color3: string, endColor: string): (lines: seq<PropLine>)
    ensures |lines| == 8
  {
    [
      Comment("splash header hex codes"),
      Entry("splash.hex.code.1", endColor),
      Entry("splash.hex.code.2", color3),
      Entry("splash.hex.code.3", color2),
      Blank,
      Comment("header heading color"),
      Entry("header.heading.color", endColor),
      Entry("header.navigation.color", WhiteHex)
    ]
  }

  /** The rest of the administration variant: fixed black and white UI colours. */
  const FixedSection: seq<PropLine> := [
    Blank,
    Comment(" Go button color"),
    Entry("header.go.font.color", BlackHex),
    Entry("header.go.background.color", WhiteHex),
    Entry("header.go.border.color", BlackHex),
    Blank,
    Comment("header links color"),
    Entry("header.admin.color", WhiteHex),
    Entry("header.hover.link.color", WhiteHex),
    Blank,
    Comment("splash header color"),
    Entry("splash.username.color", WhiteHex),
    Entry("splash.password.color", WhiteHex),
    Entry("splash.login.back.ground.color", WhiteHex),
    Entry("splash.login.text.color", BlackHex),
    Entry("splash.reset.back.ground.color", WhiteHex),
    Entry("splash.reset.text.color", BlackHex),
    Blank,
    Comment("splash content color"),
    Entry("splash.header.color", WhiteHex),
    Entry("splash.version.color", WhiteHex)
  ]

  /** The administration variant: the gradient colours followed by fixed UI colours. */
  function AdminLines(color2: string, color3: string, endColor: string): seq<PropLine> {
    ColorSection(color2, color3, endColor) + FixedSection
  }

  /**
   * The template `create_properties_file(color1, color2, color3, end_color,
   * filename, is_root)` writes. `color1` is accepted and never used.
   */
  function PropertiesLines(color1: string, color2: string, color3: string, endColor: string, isRoot: bool)
    : (lines: seq<PropLine>)
    ensures |lines| == (if isRoot then 2 else 29)
  {
    if isRoot then RootLines else AdminLines(color2, color3, endColor)
  }

  /**
   * The text written to the file. The root file is the comment
   * `#selfcare logo` and one entry pointing at the logo; the administration
   * file opens with its comment and the first splash code, the end colour.
   */
  function PropertiesContent(color1: string, color2: string, color3: string, endColor: string, isRoot: bool)
    : (content: string)
    ensures isRoot ==>
              content == "#" + "selfcare logo" + "\n"
                         + "selfcare.companyLogoImage" + " = " + "../branding/branding_logo.png"
    ensures !isRoot ==>
              "#" + "splash header hex codes" + "\n" + "splash.hex.code.1" + " = " + endColor + "\n" <= content
  {
    if isRoot then RootContent(); Render(RootLines)
    else
      AdminContentStart(color2, color3, endColor);
      Render(AdminLines(color2, color3, endColor))
  }

  /** The first two lines of a join, each followed by its newline, begin the text. */
  lemma {:induction false} JoinStart(ls: seq<string>)
    requires |ls| >= 2
    ensures JoinLines(ls) == ls[0] + "\n" + ls[1] + (if |ls| == 2 then "" else "\n" + JoinLines(ls[2..]))
  {
    assert ls[1..][1..] == ls[2..];
    if |ls| == 2 {
      assert ls[1..] == [ls[1]];
    }
  }

  lemma RootContent()
    ensures Render(RootLines)
            == "#" + "selfcare logo" + "\n" + "selfcare.companyLogoImage" + " = " + "../branding/branding_logo.png"
  {
    var rendered := RenderLines(RootLines);
    JoinStart(rendered);
    var whole := rendered[0] + "\n" + rendered[1];
    assert whole + "" == whole;
  }

  lemma AdminContentStart(color2: string, color3: string, endColor: string)
    ensures "#" + "splash header hex codes" + "\n" + "splash.hex.code.1" + " = " + endColor + "\n"
            <= Render(AdminLines(color2, color3, endColor))
  {
    var lines := AdminLines(color2, color3, endColor);
    AdminHead(color2, color3, endColor);
    RenderStart(lines);
  }

  lemma AdminHead(color2: string, color3: string, endColor: string)
    ensures var lines := AdminLines(color2, color3, endColor);
            && |lines| >= 3
            && lines[0] == Comment("splash header hex codes")
            && lines[1] == Entry("splash.hex.code.1", endColor)
  {
  }

  /** A template of three or more lines begins with its first two lines, each followed by a newline. */
  lemma RenderStart(lines: seq<PropLine>)
    requires |lines| >= 3
    ensures RenderLine(lines[0]) + "\n" + RenderLine(lines[1]) + "\n" <= Render(lines)
  {
    var rendered := RenderLines(lines);
    JoinStart(rendered);
  }

  /**
   * The value of the first entry with `key`, read from the template lines,
   * not from the written text. A `java.util.Properties` reader keeps the last
   * of several entries for one key instead; the two templates never repeat a
   * key, so on them the two agree as long as no value holds a newline. A value
   * ending in a newline is read whole here, while in the written text its line
   * holds it without the newline (`NewlineValueInWrittenText`).
   */
  function Lookup(lines: seq<PropLine>, key: string): (v: Option<string>)
    ensures v.None? ==> forall i :: 0 <= i < |lines| ==> !(lines[i].Entry? && lines[i].key == key)
  {
    if |lines| == 0 then None
    else if lines[0].Entry? && lines[0].key == key then Some(lines[0].value)
    else Lookup(lines[1..], key)
  }

  /** An entry found in the head of a template is what the whole template yields. */
  lemma {:induction false} LookupInPrefix(a: seq<PropLine>, b: seq<PropLine>, key: string)
    requires Lookup(a, key).Some?
    ensures Lookup(a + b, key) == Lookup(a, key)
  {
    if !(a[0].Entry? && a[0].key == key) {
      assert (a + b)[1..] == a[1..] + b;
      LookupInPrefix(a[1..], b, key);
    }
  }

  /** The first entry for a key decides its value. */
  lemma {:induction false} LookupFirst(lines: seq<PropLine>, i: nat)
    requires i < |lines| && lines[i].Entry?
    requires forall j :: 0 <= j < i ==> !(lines[j].Entry? && lines[j].key == lines[i].key)
    ensures Lookup(lines, lines[i].key) == Some(lines[i].value)
  {
    if i > 0 {
      LookupFirst(lines[1..], i - 1);
    }
  }

  /**
   * Which colour goes under which key: the end colour heads the splash codes
   * and the heading, `color3` and `color2` follow in reverse order.
   */
  lemma AdminColorKeys(color1: string, color2: string, color3: string, endColor: string)
    ensures var lines := PropertiesLines(color1, color2, color3, endColor, false);
            && Lookup(lines, "splash.hex.code.1") == Some(endColor)
            && Lookup(lines, "splash.hex.code.2") == Some(color3)
            && Lookup(lines, "splash.hex.code.3") == Some(color2)
            && Lookup(lines, "header.heading.color") == Some(endColor)
  {
    var lines := ColorSection(color2, color3, endColor);
    var code1, code2, code3, heading := "splash.hex.code.1", "splash.hex.code.2", "splash.hex.code.3", "header.heading.color";
    assert code1[16] == '1' && code2[16] == '2' && code3[16] == '3' && heading[0] == 'h';
    assert code1 != code2 && code1 != code3 && code2 != code3;
    assert heading != code1 && heading != code2 && heading != code3;
    LookupFirst(lines, 1);
    LookupFirst(lines, 2);
    LookupFirst(lines, 3);
    LookupFirst(lines, 6);
    LookupInPrefix(lines, FixedSection, code1);
    LookupInPrefix(lines, FixedSection, code2);
    LookupInPrefix(lines, FixedSection, code3);
    LookupInPrefix(lines, FixedSection, heading);
  }

  /**
   * Every value in the administration template is one of the three colours
   * passed in or a fixed black or white: the start colour `color1` appears
   * only where it coincides with one of those.
   */
  lemma {:induction false} AdminValues(color1: string, color2: string, color3: string, endColor: string)
    ensures var lines := PropertiesLines(color1, color2, color3, endColor, false);
            forall i :: 0 <= i < |lines| && lines[i].Entry? ==>
              lines[i].value in {endColor, color2, color3, WhiteHex, BlackHex}
  {
  }

  /** The content does not depend on `color1`, whatever it is. */
  lemma StartColorUnused(color1: string, other: string, color2: string, color3: string, endColor: string, isRoot: bool)
    ensures PropertiesContent(color1, color2, color3, endColor, isRoot)
         == PropertiesContent(other, color2, color3, endColor, isRoot)
  {
  }

  /** The root variant holds no colour: its content is the same whatever the colours. */
  lemma RootIsFixed(c1: string, c2: string, c3: string, e: string, d1: string, d2: string, d3: string, f: string)
    ensures PropertiesContent(c1, c2, c3, e, true) == PropertiesContent(d1, d2, d3, f, true)
  {
  }

  /**
   * A value ending in a newline is written as is. The template entry for
   * `splash.hex.code.1` holds the whole value, newline included; in the
   * written text that newline ends the entry's line and an empty line follows.
   */
  lemma NewlineValueInAdminContent(color1: string, color2: string, color3: string, e: string)
    ensures Lookup(PropertiesLines(color1, color2, color3, e + "\n", false), "splash.hex.code.1") == Some(e + "\n")
    ensures "#" + "splash header hex codes" + "\n" + "splash.hex.code.1" + " = " + e + "\n" + "\n"
            <= PropertiesContent(color1, color2, color3, e + "\n", false)
  {
    AdminColorKeys(color1, color2, color3, e + "\n");
    var head := "#" + "splash header hex codes" + "\n" + "splash.hex.code.1" + " = ";
    assert head + (e + "\n") + "\n" == head + e + "\n" + "\n";
  }

  /** The first two administration lines stay on one line when the end colour does. */
  lemma OneLineHead(e: string)
    requires NoNewline(e)
    ensures NoNewline("#" + "splash header hex codes") && NoNewline("splash.hex.code.1" + " = " + e)
  {
  }

  /**
   * Read line by line, the written administration text for an end colour
   * `e + "\n"` has `splash.hex.code.1 = e` as its second line, without the
   * newline, and an empty third line: a line-based reader sees `e`.
   */
  lemma NewlineValueInWrittenText(color1: string, color2: string, color3: string, e: string)
    requires NoNewline(e)
    ensures var lines := SplitLines(PropertiesContent(color1, color2, color3, e + "\n", false));
            && |lines| >= 3
            && lines[1] == "splash.hex.code.1" + " = " + e
            && lines[2] == ""
  {
    NewlineValueInAdminContent(color1, color2, color3, e);
    var comment, key := "#" + "splash header hex codes", "splash.hex.code.1";
    OneLineHead(e);
    SplitThreeLines(comment, key, " = ", e, PropertiesContent(color1, color2, color3, e + "\n", false));
  }

  /** A template line none of whose parts holds a newline. */
  predicate OneLine(line: PropLine) {
    match line
    case Comment(text) => NoNewline(text)
    case Blank => true
    case Entry(key, value) => NoNewline(key) && NoNewline(value)
  }

  /** Reading a written template back line by line gives its lines, if each stays on one line. */
  lemma {:induction false} ReadBack(lines: seq<PropLine>)
    requires |lines| >= 1
    requires forall i :: 0 <= i < |lines| ==> OneLine(lines[i])
    ensures SplitLines(Render(lines)) == RenderLines(lines)
  {
    var rendered := RenderLines(lines);
    assert forall i :: 0 <= i < |rendered| ==> NoNewline(rendered[i]);
    SplitJoin(rendered);
  }
}

=== FILE: results.dfy ===
/** Failure-carrying return values shared by the other modules. */
module Results {

  /** A value that may be absent, as Python's `None` or a falsy argument. */
  datatype Option<+T> = None | Some(value: T)

  /** Either a successful value or the error that aborted the computation. */
  datatype Result<+T, +E> = Ok(value: T) | Err(error: E)
}

=== FILE: text_layout.dfy ===
/**
 * The arithmetic of `create_transparent_image_with_text`: where each line
 * of the text goes and with which fill. Glyph measurement is the font's
 * business, so every line's bounding box is given as input, standing for
 * `draw.textbbox((0, 0), line, font=font)`; drawing itself is recorded as
 * the list of `draw.text` calls the function makes, in order.
 */
module TextLayout {
  import opened Colors
  import opened Lines

  /** `(left, top, right, bottom)` as returned by `textbbox`. */
  datatype BBox = BBox(left: int, top: int, right: int, bottom: int)

  /** An RGBA fill: the colour tuple with an alpha appended. */
  datatype Fill = Fill(color: Rgb, alpha: int)

  /** One `draw.text((x, y), line, fill=...)` call; `bilevel` is `fontmode == "1"`. */
  datatype DrawCall = DrawCall(x: int, y: int, line: string, fill: Fill, bilevel: bool)

  /** The arguments of `create_transparent_image_with_text` that the layout reads. */
  datatype TextSpec = TextSpec(
    width: int,
    height: int,
    text: string,
    fontName: string,
    fontSize: int,
    textColor: string,
    letterSpacing: int,
    glow: bool,
    yOffset: int,
    xOffset: int,
    antialias: bool)

  const GlowAlpha := 25
  const TextAlpha := 255

  /** A line's width: the glyph run plus the letter spacing between its characters. */
  function LineWidth(box: BBox, line: string, letterSpacing: int): (w: int)
    ensures |line| == 1 || letterSpacing == 0 ==> w == box.right - box.left
    ensures |line| >= 1 && letterSpacing >= 0 ==> box.right - box.left <= w
    ensures |line| >= 1 && letterSpacing <= 0 ==> w <= box.right - box.left
  {
    box.right - box.left + (|line| - 1) * letterSpacing
  }

  function LineHeight(box: BBox): int {
    box.bottom - box.top
  }

  /** The gap between lines, `font_size // 2`. */
  function LineGap(fontSize: int): int {
    fontSize / 2
  }

  /** `sum(xs)`, adding from the left. */
  function Sum(xs: seq<int>): int {
    if |xs| == 0 then 0 else Sum(xs[..|xs| - 1]) + xs[|xs| - 1]
  }

  lemma SumOfFew(xs: seq<int>)
    ensures |xs| == 1 ==> Sum(xs) == xs[0]
    ensures |xs| == 2 ==> Sum(xs) == xs[0] + xs[1]
  {
    if |xs| == 1 {
      assert xs[..0] == [];
    } else if |xs| == 2 {
      assert xs[..1][..0] == [];
    }
  }

  function Heights(boxes: seq<BBox>): (hs: seq<int>)
    ensures |hs| == |boxes|
    ensures forall i :: 0 <= i < |boxes| ==> hs[i] == LineHeight(boxes[i])
  {
    seq(|boxes|, i requires 0 <= i < |boxes| => LineHeight(boxes[i]))
  }

  /** The block's height: all line heights plus one gap between each pair of lines. */
  function TotalHeight(boxes: seq<BBox>, fontSize: int): (t: int)
    ensures |boxes| == 1 ==> t == LineHeight(boxes[0])
    ensures |boxes| == 2 ==> t == LineHeight(boxes[0]) + LineGap(fontSize) + LineHeight(boxes[1])
  {
    var hs := Heights(boxes);
    SumOfFew(hs);
    Sum(hs) + (|boxes| - 1) * LineGap(fontSize)
  }

  /**
   * `start_y`: the block centred in the canvas height, then moved by
   * `y_offset`. Before the offset, the space above the block and the space
   * below it differ by at most one pixel, the odd pixel going below.
   */
  function StartY(spec: TextSpec, boxes: seq<BBox>): (y: int)
    ensures var above := y - spec.yOffset;
            var below := spec.height - (above + TotalHeight(boxes, spec.fontSize));
            above <= below <= above + 1
  {
    (spec.height - TotalHeight(boxes, spec.fontSize)) / 2 + spec.yOffset
  }

  /** `start_x` of a line: centred in the canvas width in the same sense, then moved by `x_offset`. */
  function LineX(spec: TextSpec, lineWidth: int): (x: int)
    ensures var left := x - spec.xOffset;
            var right := spec.width - (left + lineWidth);
            left <= right <= left + 1
  {
    (spec.width - lineWidth) / 2 + spec.xOffset
  }

  /**
   * Where line `i` starts vertically: below the heights of every line above
   * it and one gap per line above it. The source reaches this value by
   * adding one line at a time.
   */
  function LineTop(spec: TextSpec, boxes: seq<BBox>, i: nat): (y: int)
    requires i <= |boxes|
    ensures i == 0 ==> y == StartY(spec, boxes)
    ensures i == |boxes| ==> y == StartY(spec, boxes) + TotalHeight(boxes, spec.fontSize) + LineGap(spec.fontSize)
  {
    assert Heights(boxes)[..|boxes|] == Heights(boxes);
    assert Heights(boxes)[..0] == [];
    StartY(spec, boxes) + Sum(Heights(boxes)[..i]) + i * LineGap(spec.fontSize)
  }

  /**
   * The call that draws line `i`: centred horizontally, `lift` pixels above
   * the line's top, with the given fill, bilevel unless antialiased.
   */
  function PassCall(spec: TextSpec, boxes: seq<BBox>, lines: seq<string>, fill: Fill, lift: int, i: nat): DrawCall
    requires i < |boxes| == |lines|
  {
    DrawCall(LineX(spec, LineWidth(boxes[i], lines[i], spec.letterSpacing)),
             LineTop(spec, boxes, i) - lift, lines[i], fill, !spec.antialias)
  }

  /** The draw call for line `i` of the main pass: at the line's top, in the text colour, opaque. */
  predicate IsMainCall(call: DrawCall, spec: TextSpec, boxes: seq<BBox>, lines: seq<string>, color: Rgb, i: nat)
    requires i < |boxes| == |lines|
  {
    call == PassCall(spec, boxes, lines, Fill(color, TextAlpha), 0, i)
  }

  /** The draw call for line `i` of the glow pass: same x, one pixel higher, brightened and faint. */
  predicate IsGlowCall(call: DrawCall, spec: TextSpec, boxes: seq<BBox>, lines: seq<string>, color: Rgb, i: nat)
    requires i < |boxes| == |lines|
  {
    call == PassCall(spec, boxes, lines, Fill(GlowColor(color), GlowAlpha), 1, i)
  }

  lemma SumAppend(xs: seq<int>, i: nat)
    requires i < |xs|
    ensures Sum(xs[..i + 1]) == Sum(xs[..i]) + xs[i]
  {
    assert xs[..i + 1][..i] == xs[..i];
  }

  /** Moving from line `i` to line `i + 1` adds its height and one gap. */
  lemma LineTopStep(spec: TextSpec, boxes: seq<BBox>, i: nat)
    requires i < |boxes|
    ensures LineTop(spec, boxes, i + 1) == LineTop(spec, boxes, i) + LineHeight(boxes[i]) + LineGap(spec.fontSize)
  {
    SumAppend(Heights(boxes), i);
    var g := LineGap(spec.fontSize);
    assert (i + 1) * g == i * g + g;
  }

  /**
   * `create_transparent_image_with_text`: measures every line, then, with
   * `glow`, draws each line brightened one pixel up (the glow pass), then
   * draws each line in the text colour (the main pass). The calls are made
   * in the order `glowPass + mainPass`; every one is bilevel unless
   * `antialias` is set.
   */
  method RenderText(spec: TextSpec, boxes: seq<BBox>) returns (glowPass: seq<DrawCall>, mainPass: seq<DrawCall>)
    requires |boxes| == |SplitLines(spec.text)|
    requires |spec.textColor| > 0 && spec.textColor[0] == '#' && Parsable(spec.textColor)
    ensures var lines := SplitLines(spec.text);
            |mainPass| == |lines| && |glowPass| == (if spec.glow then |lines| else 0)
    ensures var lines := SplitLines(spec.text);
            forall i :: 0 <= i < |lines| ==> IsMainCall(mainPass[i], spec, boxes, lines, HexToRgb(spec.textColor), i)
    ensures var lines := SplitLines(spec.text);
            forall i :: 0 <= i < |glowPass| ==> IsGlowCall(glowPass[i], spec, boxes, lines, HexToRgb(spec.textColor), i)
  {
    glowPass, mainPass := DrawLines(spec, boxes, SplitLines(spec.text), HexToRgb(spec.textColor));
  }

  /** The body of `create_transparent_image_with_text` once the text is split and its colour is a tuple. */
  method DrawLines(spec: TextSpec, boxes: seq<BBox>, lines: seq<string>, mainColor: Rgb)
    returns (glowPass: seq<DrawCall>, mainPass: seq<DrawCall>)
    requires |boxes| == |lines|
    ensures |mainPass| == |lines| && |glowPass| == (if spec.glow then |lines| else 0)
    ensures forall i :: 0 <= i < |lines| ==> IsMainCall(mainPass[i], spec, boxes, lines, mainColor, i)
    ensures forall i :: 0 <= i < |glowPass| ==> IsGlowCall(glowPass[i], spec, boxes, lines, mainColor, i)
  {
    var widths, heights := Measure(spec, boxes, lines);
    var gap := spec.fontSize / 2;
    var totalHeight := Sum(heights) + (|lines| - 1) * gap;
    assert totalHeight == TotalHeight(boxes, spec.fontSize);
    var startY := (spec.height - totalHeight) / 2 + spec.yOffset;
    glowPass := [];
    if spec.glow {
      glowPass := DrawPass(spec, boxes, lines, widths, heights, startY, Fill(GlowColor(mainColor), GlowAlpha), 1);
    }
    mainPass := DrawPass(spec, boxes, lines, widths, heights, startY, Fill(mainColor, TextAlpha), 0);
  }

  /** The measuring loop: each line's width and height from its bounding box. */
  method Measure(spec: TextSpec, boxes: seq<BBox>, lines: seq<string>)
    returns (widths: seq<int>, heights: seq<int>)
    requires |boxes| == |lines|
    ensures |widths| == |lines|
    ensures forall i :: 0 <= i < |lines| ==> widths[i] == LineWidth(boxes[i], lines[i], spec.letterSpacing)
    ensures heights == Heights(boxes)
  {
    widths, heights := [], [];
    var k := 0;
    while k < |lines|
      invariant 0 <= k <= |lines|
      invariant |widths| == k
      invariant forall j :: 0 <= j < k ==> widths[j] == LineWidth(boxes[j], lines[j], spec.letterSpacing)
      invariant heights == Heights(boxes)[..k]
    {
      widths := widths + [LineWidth(boxes[k], lines[k], spec.letterSpacing)];
      heights := heights + [LineHeight(boxes[k])];
      k := k + 1;
    }
  }

  /**
   * One drawing loop: `current_y` starts at `start_y`; each line is drawn
   * `lift` pixels above it, centred, and `current_y` then advances by the
   * line's height and the gap.
   */
  method DrawPass(spec: TextSpec, boxes: seq<BBox>, lines: seq<string>, widths: seq<int>,
                  heights: seq<int>, startY: int, fill: Fill, lift: int)
    returns (calls: seq<DrawCall>)
    requires |boxes| == |lines| == |widths|
    requires forall i :: 0 <= i < |lines| ==> widths[i] == LineWidth(boxes[i], lines[i], spec.letterSpacing)
    requires heights == Heights(boxes)
    requires startY == StartY(spec, boxes)
    ensures |calls| == |lines|
    ensures forall i :: 0 <= i < |lines| ==> calls[i] == PassCall(spec, boxes, lines, fill, lift, i)
  {
    var gap := spec.fontSize / 2;
    var currentY := startY;
    calls := [];
    var i := 0;
    while i < |lines|
      invariant 0 <= i <= |lines|
      invariant |calls| == i
      invariant currentY == LineTop(spec, boxes, i)
      invariant forall j :: 0 <= j < i ==> calls[j] == PassCall(spec, boxes, lines, fill, lift, j)
    {
      var startX := (spec.width - widths[i]) / 2 + spec.xOffset;
      var call := DrawCall(startX, currentY - lift, lines[i], fill, !spec.antialias);
      assert call == PassCall(spec, boxes, lines, fill, lift, i);
      calls := calls + [call];
      LineTopStep(spec, boxes, i);
      currentY := currentY + heights[i] + gap;
      i := i + 1;
    }
  }

  // ---------------------------------------------------------------------
  // What the placement achieves

  /** The last line ends exactly `TotalHeight` below the start: the block is as tall as computed. */
  lemma {:induction false} BlockHeight(spec: TextSpec, boxes: seq<BBox>)
    requires |boxes| >= 1
    ensures LineTop(spec, boxes, |boxes| - 1) + LineHeight(boxes[|boxes| - 1])
            == StartY(spec, boxes) + TotalHeight(boxes, spec.fontSize)
  {
    var n := |boxes|;
    LineTopStep(spec, boxes, n - 1);
    assert Heights(boxes)[..n] == Heights(boxes);
  }

  /** The glow colour never darkens a channel and never leaves the byte range. */
  lemma GlowBrightens(c: Rgb)
    requires c.Valid()
    ensures ChannelsBetween(c, Rgb(255, 255, 255), GlowColor(c))
  {
  }
}
